=== FILE: README.md ===
# toznyauth-pam in Dafny

A model of the core of `toznyauth_pam`, a Linux-PAM module that authenticates
a Unix user through the Tozny service. The user approves the login on a phone,
by scanning a QR code or by accepting a push notification. The model covers:

- **The PAM entry points** (`ToznyAuthPam`). `pam_sm_authenticate`
  asks for the user name, builds the configuration, gets the conversation and
  runs one attempt. The attempt issues a challenge and delivers it, either as
  a push to the device remembered in the presence cache or as a QR code / URL
  shown through the conversation. It then polls the session status once a
  second, verifies the signed answer and checks it against the authorized
  users. Failures are shown (unless silent) and mapped to PAM result codes.
  `pam_sm_setcred` always succeeds.
- **The configuration** (`Config`). It comes from the flags `-p/--prompt`,
  `-Q/--no-qr`, `-P/--no-presence` and `-M/--no-mobile`, from the user's home
  directory, and from `~/.config/tozny/authorized.toml` (`api_url`,
  `realm_key_id`, `authorized_users`).
- **The presence cache** (`Presence`). This is the file
  `~/.cache/toznyauth_pam_presence`. It runs over an abstract filesystem
  (`FileSystem`) in which permission failures, a full disk and the lack of
  privilege are part of the state.
- **The terminal QR renderer** (`QrTerm`). It has two modes:
  - two-character ANSI blocks per module (ASCII);
  - one half-block glyph per two rows (Unicode).

The driver is a pure function of its inputs. These are:

- the remote service's answers (`ToznyAuthPam.Api`);
- the PAM handle's answers and the conversation (`ToznyAuthPam.Host`,
  `ToznyAuthPam.Conv`);
- the filesystem;
- the QR encoder, the TOML and URL parsers, the passwd lookup and the output
  of the `id` command.

It returns the PAM code, the filesystem afterwards, and the list of
observable calls in order (`ToznyAuthPam.Effect`).

Rendered text is modelled as the sequence of lines the writer receives.
`Concat` of those lines is the character stream; widths and offsets are
counted in characters, not in the UTF-8 bytes the source writes.

Four behaviours of the code worth knowing:

- **Push and save order.** With presence on, `authenticate` first pushes to
  the token already cached, and only then caches the new challenge's token.
  See `src/toznyauth_pam.rs:86-90`.
- **Number of checks.** The poll with ttl 100 makes up to 101 status checks,
  with 100 one-second sleeps between them. See `src/toznyauth_pam.rs:170-188`.
- **What the QR code encodes.** The inline QR code encodes the challenge's
  mobile URL, and the text under it shows the QR URL. See
  `src/toznyauth_pam.rs:141-149` and `232-234`.
- **Cache file ownership.** The session driver saves the presence token with
  the id lookup as written, which never resolves (see "## Findings"), so
  the cache file is never handed to the user. See `src/presence.rs:27-34`.

## Model

| member | source | states |
|---|---|---|
| QrTerm.Glyph | src/qr_term.rs:76-83 | the glyph for a bit pair is one of the four glyphs, and its upper and lower halves are inked exactly as the pair says |
| QrTerm.GlyphBijective | src/qr_term.rs:10-13 | the four glyphs and the four bit pairs correspond one to one: decoding a glyph gives back its pair, and re-encoding a decoded glyph gives back the glyph |
| QrTerm.Block | src/qr_term.rs:85-90 | the upper bit is row y, the lower bit is row y+1, and below the last row the lower bit is clear |
| QrTerm.BlackOnWhite | src/qr_term.rs:57-60 | the two colour escapes together are 10 characters |
| QrTerm.ResetColors | src/qr_term.rs:62-64 | the reset escape is 4 characters |
| QrTerm.HorizBorder | src/qr_term.rs:66-74 | a border line is: the pad, the colour escapes, size+2 copies of the unit, the reset and a newline (with its exact length) |
| QrTerm.HorizBorderUnits | src/qr_term.rs:69-71 | every one of the size+2 slots between the escapes holds the unit |
| QrTerm.GlyphRow | src/qr_term.rs:43-45 | a data line carries one glyph per column, and glyph x is the glyph of block (x, y) |
| QrTerm.UnicodeRow | src/qr_term.rs:39-49 | every Unicode data line starts with the pad and is size+17 characters past it; its parts are stated by `UnicodeRowFrame` |
| QrTerm.UnicodeRowFrame | src/qr_term.rs:39-49 | after the pad a data line holds the colour escapes, a blank frame glyph, the row's glyphs, a blank frame glyph, then the reset and the newline |
| QrTerm.UnicodeRowGlyph | src/qr_term.rs:42-46 | column pad+11+x of a data line is the glyph of block (x, y), and columns pad+10 and pad+11+size are the blank frame glyphs |
| QrTerm.OutputUnicode | src/qr_term.rs:36-55 | a ▀ top border, one data line per pair of rows, and a ▄ bottom border only for even sizes |
| QrTerm.UnicodeLineShape | src/qr_term.rs:36-55 | all Unicode lines, borders included, start with the pad and have the same width |
| QrTerm.UnicodeRoundTrip | src/qr_term.rs:36-55 | Unicode output loses no bit: decoding the half-glyphs gives back the whole matrix |
| QrTerm.OddLastRowClosesFrame | src/qr_term.rs:50-53 | for odd sizes the last data line has only glyphs with a clear lower half, so it closes the frame without a bottom border |
| QrTerm.Cell | src/qr_term.rs:27 | a cell is the black block exactly when the bit is set, and the white block exactly when it is clear |
| QrTerm.RowBlocks | src/qr_term.rs:25-29 | an ASCII row has size+2 blocks of 11 characters: white at both ends, and the bit's cell at x+1 |
| QrTerm.AsciiRow | src/qr_term.rs:24-30 | an ASCII data line starts with the pad, ends with a newline, and is 11*(size+2)+1 characters past the pad |
| QrTerm.AsciiRowBlock | src/qr_term.rs:24-30 | block b of a data line sits at column pad+11*b |
| QrTerm.OutputAscii | src/qr_term.rs:20-33 | size+2 lines: identical white borders at top and bottom, and row y on line y+1 |
| QrTerm.AsciiLinePad | src/qr_term.rs:20-33 | every ASCII line starts with the pad |
| QrTerm.AsciiRoundTrip | src/qr_term.rs:20-33 | ASCII output loses no bit: a module is set exactly when its cell is the black block |
| QrTerm.AsciiBorderBlocks | src/qr_term.rs:22-32 | the top and bottom border lines each hold size+2 white blocks, one per slot after the colour escapes |
| Config.ProgramOpts | src/config.rs:97-104 | four flags with pairwise distinct short and long names |
| Config.FindLong | src/config.rs:97-104 | finds the flag with the given long name, or none exactly when no flag has that name |
| Config.FindShort | src/config.rs:97-104 | finds the flag with the given letter, or none exactly when no flag has that letter |
| Config.ScanArg | src/config.rs:30 | an accepted argument names only declared flags; a long flag is refused exactly when its name before any `=` is unknown (UnrecognizedOption) or it carries a value (UnexpectedArgument); a cluster is refused exactly when it holds an unknown letter; free arguments name nothing |
| Config.ArgNames | src/config.rs:30 | an accepted argument other than `--` names a flag exactly when it spells it, long or inside a short cluster |
| Config.ScanShorts | src/config.rs:30 | a cluster is accepted exactly when every letter is some flag's short name, and then names those flags in order; otherwise the first unknown letter is refused |
| Config.SplitEq | src/config.rs:30 | a long argument's name is its text before the first `=`, and whether a value follows |
| Config.SplitAtFirstEq | src/config.rs:30 | for a name without `=`, the name of `--name=value` is exactly that name, with a value |
| Config.Scan | src/config.rs:30 | the arguments before `--` are accepted exactly when each of them is, and a refusal is that of the first refused argument |
| Config.FirstDuplicated | src/config.rs:30 | the first flag, in declaration order, given more than once, or none when no flag is repeated |
| Config.ParseOpts | src/config.rs:30 | succeeds exactly when the scan does and no flag is named twice, and then reports as given exactly the flags the arguments name; a scan refusal is passed on, and a repeat reports the first repeated flag in declaration order |
| Config.UnknownLongRefused | src/config.rs:30 | the program's options refuse `--bogus` as unrecognized |
| Config.FlagValueRefused | src/config.rs:30 | the program's options refuse `--prompt=` with any value as an unexpected argument |
| Config.ValueRefused | src/config.rs:30 | any known long flag written with `=` and a value is refused as an unexpected argument |
| Config.UnknownShortRefused | src/config.rs:30 | the program's options refuse `-px` for its unknown letter `x` |
| Config.RepeatedFlagRefused | src/config.rs:30 | the program's options refuse `-pp` as a duplicated `prompt` |
| Config.ScanMentions | src/config.rs:30 | a successful scan names a flag exactly when some argument before `--` spells it, long or inside a short cluster |
| Config.FlagPresence | src/config.rs:46-49 | after a successful parse, `opt_present` holds exactly when the command line mentions the flag |
| Config.Get | src/config.rs:205-209 | a key's value, or MissingField(key) exactly when the key is absent |
| Config.AsStr | src/config.rs:193-197 | a string value's text, or a type error naming "String" and the actual TOML type |
| Config.AsSlice | src/config.rs:199-203 | an array value's items, or a type error naming "Array" and the actual TOML type |
| Config.ApiUrlText | src/config.rs:76-77 | the table's `api_url` string, or https://api.tozny.com when the key is missing or not a string |
| Config.FromTable | src/config.rs:75-94 | errors in the order URL, `realm_key_id` (missing, then not a string), `authorized_users` (missing, then not an array); succeeds exactly when all three are good, with those three values |
| Config.GetAuthPath | src/config.rs:185-191 | the path is the home directory extended by `.config/tozny/authorized.toml` |
| Config.GetHome | src/config.rs:165-183 | the passwd home directory, present exactly when the lookup gives one and that path exists |
| Config.ReadConfig | src/config.rs:106-117 | an unreadable file gives ErrorReading; a parse failure gives ParseError; otherwise the table's validation decides |
| Config.Build | src/config.rs:29-54 | errors in the order getopts, no home, missing authorization file, unreadable or invalid file; on success the home and file settings, `prompt` on exactly when -p/--prompt is given, and `qr`, `presence` and `mobile_url` on exactly when their -Q, -P or -M switch is absent |
| Config.IsAuthorized | src/config.rs:60-64 | true exactly when some string entry of `authorized_users` equals the login's user id; other entries never match |
| Config.StringEntries | src/config.rs:61 | a string is kept exactly when it is some string entry of the array |
| Presence.ParseIsize | src/presence.rs:74-76 | a parsed number is within the 64-bit signed range and the text ends with a digit |
| Presence.GetIdAsWritten | src/presence.rs:61-77 | a resolved id is the number the command's whole output parses to |
| Presence.IdNewlineRejected | src/presence.rs:61-77 | output ending in a newline never resolves, so "1000\n" gives no id |
| Presence.TrimNewline | src/presence.rs:74-76 | removes one trailing newline and nothing else |
| Presence.GetId | src/presence.rs:61-77 | a resolved id is the number on the output's line, and a failed command resolves nothing |
| Presence.ShowNatRoundTrip | src/presence.rs:74-76 | reading back the decimal digits of a number gives the number |
| Presence.GetIdReadsIdOutput | src/presence.rs:61-77 | for the output `id` prints for a valid id, the corrected lookup yields that id |
| Presence.CacheDir | src/presence.rs:40-41 | the cache directory is the home directory extended by `.cache` |
| Presence.PresencePath | src/presence.rs:55-58 | the cache file is `toznyauth_pam_presence`, directly in the cache directory |
| Presence.GetPresenceFile | src/presence.rs:39-59 | the file path exactly when `.cache` is a directory or can be created; none when `.cache` is something else; the only change is the created directory |
| Presence.GetPresence | src/presence.rs:8-17 | the file's exact contents, present exactly when the cache directory is usable and the file readable |
| Presence.SavePresence | src/presence.rs:19-36 | for either id lookup, a `.cache` that is not a directory leaves the filesystem alone, and no path other than the cache directory and file changes |
| Presence.SaveWritesToken | src/presence.rs:19-25 | on a writable cache the file afterwards holds exactly the token |
| Presence.SaveThenLoad | src/presence.rs:8-36 | saving a token then loading it on the same home returns that token, whatever the ownership step does |
| Presence.BlockedCache | src/presence.rs:42-50 | with `.cache` not a directory, loading finds nothing and saving changes nothing |
| Presence.SaveOwnership | src/presence.rs:27-34 | for either id lookup, the file goes to the user's uid and gid when both resolve and chown is allowed; otherwise it keeps its previous owner, or the writing process's when newly created |
| Presence.AsWrittenKeepsOwner | src/presence.rs:27-34 | with the lookup as written and `id` printing the user's ids, the file keeps its previous owner, or the writing process's when newly created |
| Presence.CorrectedGivesFileToUser | src/presence.rs:27-34 | with the corrected lookup, a privileged save gives the file to the uid and gid that `id` prints |
| ToznyAuthPam.ErrorCode | src/toznyauth_pam.rs:190-201 | configuration errors and time-outs give AUTHINFO_UNAVAIL, an unauthorized login PERM_DENIED, PAM errors their own code, a bad signature AUTH_ERR, and other service errors SERVICE_ERR |
| ToznyAuthPam.ErrorCodeIsFailure | src/toznyauth_pam.rs:190-201 | apart from passed-through PAM codes, no error maps to success |
| ToznyAuthPam.PromptedMessage | src/toznyauth_pam.rs:157-164 | with `prompt`, a masked prompt of the body plus the press-Enter suffix; otherwise the body alone as information |
| ToznyAuthPam.Interact | src/toznyauth_pam.rs:157-168 | succeeds exactly when the conversation delivers the message; a failure carries the conversation's PAM code |
| ToznyAuthPam.InlineQrText | src/toznyauth_pam.rs:141-149 | a newline, then the Unicode QR rendering of the mobile URL with an 8-space pad, then the scan-the-code intro, ending with the QR URL |
| ToznyAuthPam.QrUrlText | src/toznyauth_pam.rs:151-155 | the URL intro followed by exactly the QR URL |
| ToznyAuthPam.QrText | src/toznyauth_pam.rs:124-139 | the inline QR code when `qr` is on, else the QR URL, followed by the mobile URL exactly when `mobile_url` is on |
| ToznyAuthPam.PollSessionStatus | src/toznyauth_pam.rs:170-188 | at most ttl+1 checks with one sleep between consecutive ones, all but the last not ready; the last decides: ready returns its data, an error fails with it, not ready times out only after ttl+1 checks |
| ToznyAuthPam.PollTimesOut | src/toznyauth_pam.rs:170-188 | a session never ready within the window times out after exactly ttl+1 checks and ttl sleeps |
| ToznyAuthPam.PollFindsFirstReady | src/toznyauth_pam.rs:170-188 | the first ready answer within the window is the one returned, after k+1 checks and k sleeps |
| ToznyAuthPam.PushAndRefresh | src/toznyauth_pam.rs:86-90 | reads the cache, pushes only if a token was cached, then caches the new token whatever the push did; reports a push only when it succeeded |
| ToznyAuthPam.Delivery | src/toznyauth_pam.rs:86-90 | with presence off there is no push, no effect and no filesystem change |
| ToznyAuthPam.Authenticate | src/toznyauth_pam.rs:77-102 | a failed challenge stops at once with its error; every run starts with the challenge request; a returned login is authorized |
| ToznyAuthPam.AuthenticateShows | src/toznyauth_pam.rs:84-92 | an attempt with a challenge makes, in order: the challenge request, the delivery calls, exactly one message, and then at most the polling; nothing else; and it keeps the filesystem the delivery left |
| ToznyAuthPam.DeliveryText | src/toznyauth_pam.rs:91 | after a successful push the message body is the push notice (`show_push`, lines 118-122); otherwise it is the QR text |
| ToznyAuthPam.PresenceOffIsVisual | src/toznyauth_pam.rs:86-91 | with presence off the cache is never touched, the filesystem is unchanged, and the QR message is what is shown |
| ToznyAuthPam.PresenceOnPushes | src/toznyauth_pam.rs:86-91 | with presence on: cache read, push to the cached token if any, cache write of the new token, then the push message if that push succeeded, else the QR message |
| ToznyAuthPam.AuthenticateOutcome | src/toznyauth_pam.rs:77-102 | success exactly when every step succeeds and the unpacked login is authorized; NotAuthorized exactly when every step succeeds but the login is not |
| ToznyAuthPam.ShowInfo | src/toznyauth_pam.rs:219-224 | one informational message unless the flags carry PAM_SILENT, then none |
| ToznyAuthPam.PamSmAuthenticate | src/toznyauth_pam.rs:37-58 | the decision chain: a user-name failure returns its own code, then a configuration failure AUTHINFO_UNAVAIL, then a conversation failure its own code; only when all three succeed does an attempt run, and before that the filesystem is untouched; the user-name and configuration errors are shown exactly when not silent and a conversation is available, and a conversation failure shows nothing |
| ToznyAuthPam.Conclude | src/toznyauth_pam.rs:47-57 | a login gives PAM_SUCCESS followed by the "Authenticated as" greeting unless silent; an error gives its code from the error table and is shown, as at most one added message and exactly one when not silent and a conversation is available; the attempt's calls come first and its filesystem is kept |
| ToznyAuthPam.QuietFailureShowsNothing | src/toznyauth_pam.rs:53-56 | a failed attempt under PAM_SILENT, or without a conversation, adds no message at all |
| ToznyAuthPam.Failed | src/toznyauth_pam.rs:52-57 | the error's code, with one message showing the error added exactly when not silent and a conversation is available |
| ToznyAuthPam.PamSmSetcred | src/toznyauth_pam.rs:60-66 | credentials setting always returns PAM_SUCCESS |
| ToznyAuthPam.NeverReadyPollCount | src/toznyauth_pam.rs:93 | with the hard-wired ttl of 100, a session never ready is checked 101 times with 100 sleeps and times out |
| ToznyAuthPam.NeverReadyTimesOut | src/toznyauth_pam.rs:91-95 | once the message went out, a session never ready ends the attempt with TimedOut after 101 checks and 100 sleeps, reported as AUTHINFO_UNAVAIL |
| ToznyAuthPam.ConversationFailureEndsAttempt | src/toznyauth_pam.rs:91-92 | a message the conversation cannot deliver ends the attempt with the conversation's code as its PAM code, and the message is the last call: nothing is polled |
| ToznyAuthPam.UnpackFailureEndsAttempt | src/toznyauth_pam.rs:96-98 | a signed answer that does not unpack ends the attempt with that error after polling; a bad signature gives AUTH_ERR, any other failure SERVICE_ERR |
| ToznyAuthPam.PollErrorEndsAttempt | src/toznyauth_pam.rs:91-95 | once the message went out, an error from polling is the attempt's error |
| ToznyAuthPam.UnauthorizedIsDenied | src/toznyauth_pam.rs:99-101 | a verified login that is not listed is refused with PERM_DENIED |

## Left out

- The Tozny API calls are parameters of `ToznyAuthPam.Api`: `login_challenge`, `push`, `check_session_status`, and `question::unpack` with its signature check. The cryptography and the HTTP protocol are not part of this model.
- The QR encoder (`qrcode::QrCode::new`) is a parameter returning a square bit matrix. Its failure (the `unwrap` in `build_qr`) is not modelled.
- The TOML parser and `url::Url::parse` are parameters. A parsed URL is kept as its text.
- `getent passwd` is a parameter that gives the home directory. Its process handling, its UTF-8 check and the panic on a short passwd line are not modelled.
- The `id` command is a parameter that gives its standard output when it exits successfully. The UTF-8 check of that output is not modelled. A leading `+` sign is not modelled either, because `id` never prints one.
- `getopts` is modelled only for what four flags need: long names, short clusters, `--`, unknown flags, values given to flags, and repeated flags. These are left out:
  - long names must be spelled in full: a prefix of a flag's name is refused as unrecognized;
  - the exact order in which getopts reports competing errors;
  - descriptions and usage text.
- Arguments that are not UTF-8 are dropped by `translate_args`. The model starts from the list that remains.
- The one-second `sleep` is counted in `ToznyAuthPam.Effect.Polled`, not performed.
- The text of error messages (the `Display` impls) is left out. `ErrorShown` carries the message style (`PAM_ERROR_MSG`) and the error value.
- File modes are left out: the `USER_RWX` mode of the created cache directory and the mode of new files. Permission, read-only and quota failures are the state's `locked` set and `diskFull` flag. Directory owners are not tracked.
- `chown` is allowed or refused as a whole, through the `privileged` flag.
- `get_user_api` (building the client from `realm_key_id` and `api_url`) has no behaviour of its own here: the `Api` parameter stands for that client.
- Concurrency between two attempts sharing a presence file is not modelled.
- ToznyAuthPam.Authenticate: its own contract states only the challenge failure, the first call and that a returned login is authorized. The rest of its behaviour is stated by `AuthenticateShows`, `AuthenticateOutcome`, `PresenceOffIsVisual`, `PresenceOnPushes`, `ConversationFailureEndsAttempt`, `PollErrorEndsAttempt`, `NeverReadyTimesOut` and `UnpackFailureEndsAttempt`.
- QrTerm.BlackOnWhite: its contract states only the length. The escape text is the constants `BlackFg` and `WhiteBg`.
- QrTerm.ResetColors: its contract states only the length. The escape text is the constant `Reset`.
- Text is a sequence of Unicode characters, not UTF-8 bytes. The glyphs ▀, ▄ and █ are one character each, though they are three bytes each in the stream the source writes; so `QrTerm.UnicodeLineShape`'s equal width holds in characters. For the same reason the UTF-8 failure of `read_to_string` on the cache file and on the configuration file cannot occur in the model: file data is already text.
- ToznyAuthPam.Failed: records `ErrorShown` even for a `PamResult` error. The source sends an empty message in that case, because its `Display` writes nothing.

## Findings

| source | as written | input that shows it | evidently intended | confidence | as-written member | corrected member |
|---|---|---|---|---|---|---|
| src/presence.rs:61-77 | `get_id` parses the whole standard output of `id -u <user>` / `id -g <user>` as an integer, and that output ends with a newline, so the parse always fails and `save_presence` never hands the cache file to the user | `id -u alice` printing "1000\n" yields no uid | parse the number on the output's line (trim the newline), so the file goes to uid 1000 | medium, not executed | Presence.GetIdAsWritten, Presence.IdNewlineRejected, Presence.AsWrittenKeepsOwner | Presence.GetId, Presence.GetIdReadsIdOutput, Presence.CorrectedGivesFileToUser |

`Presence.SavePresence` takes the id lookup as a parameter. The session
driver (`ToznyAuthPam.PushAndRefresh`) passes the lookup as written, so the
filesystem it computes is the one the source produces; the corrected lookup
is proved to give the file to the user.

=== FILE: config.dfy ===
/** `src/config.rs`: building the per-attempt configuration from the PAM
    module arguments and the user's `~/.config/tozny/authorized.toml`.

    The TOML text parser, the URL parser and the passwd lookup (`getent`)
    are outside this model: they arrive as function parameters. Command-line
    flags are parsed by a model of the `getopts` rules the four flags use. */
module Config {
  import opened Results
  import opened FileSystem
  import opened ToznyApi

  /** A TOML value (`toml::Value`). Floats are kept as their text. */
  datatype Value =
    | VString(s: string)
    | VInteger(i: int)
    | VFloat(text: string)
    | VBoolean(b: bool)
    | VDatetime(text: string)
    | VArray(items: seq<Value>)
    | VTable(entries: map<string, Value>)

  type Table = map<string, Value>

  /** `toml::Value::type_str`, used in type-error messages. */
  function TypeStr(v: Value): string {
    match v
    case VString(_) => "string"
    case VInteger(_) => "integer"
    case VFloat(_) => "float"
    case VBoolean(_) => "boolean"
    case VDatetime(_) => "datetime"
    case VArray(_) => "array"
    case VTable(_) => "table"
  }

  /** The command-line flags, as declared in `program_opts`. */
  datatype OptSpec = OptSpec(short: char, long: string)

  /** Why option parsing failed (`getopts::Fail`, for flags only). */
  datatype OptFail =
    | UnrecognizedOption(name: string)
    | UnexpectedArgument(name: string)
    | OptionDuplicated(name: string)

  datatype ConfigError =
    | ErrorReading
    | GetoptsError(fail: OptFail)
    | InvalidUrl(reason: string)
    | MissingField(key: string)
    | MissingAuthFile(path: Path)
    | NoHomeDir
    | ParseError
    | TypeError(expected: string, actual: string)

  const DefaultApiUrl: string := "https://api.tozny.com"

  /** The four flags: -p/--prompt, -Q/--no-qr, -P/--no-presence, -M/--no-mobile. */
  function ProgramOpts(): (opts: seq<OptSpec>)
    ensures |opts| == 4 && WellFormedOpts(opts)
  {
    var opts := [OptSpec('p', "prompt"), OptSpec('Q', "no-qr"), OptSpec('P', "no-presence"), OptSpec('M', "no-mobile")];
    assert forall i :: 0 <= i < |opts| ==> '=' !in opts[i].long by {
      assert '=' !in "prompt" && '=' !in "no-qr" && '=' !in "no-presence" && '=' !in "no-mobile";
    }
    opts
  }

  /** Distinct short and long names, and no `=` in a long name. */
  predicate WellFormedOpts(opts: seq<OptSpec>) {
    && (forall i, j :: 0 <= i < j < |opts| ==> opts[i].long != opts[j].long && opts[i].short != opts[j].short)
    && (forall i :: 0 <= i < |opts| ==> '=' !in opts[i].long)
  }

  /** Index of the option with long name `name`, if any. */
  function FindLong(opts: seq<OptSpec>, name: string): (r: Option<nat>)
    ensures r.Some? ==> r.value < |opts| && opts[r.value].long == name
    ensures r.None? ==> forall i :: 0 <= i < |opts| ==> opts[i].long != name
  {
    if |opts| == 0 then None
    else if opts[0].long == name then Some(0)
    else match FindLong(opts[1..], name)
      case Some(i) => Some(i + 1)
      case None => None
  }

  /** Index of the option with short name `c`, if any. */
  function FindShort(opts: seq<OptSpec>, c: char): (r: Option<nat>)
    ensures r.Some? ==> r.value < |opts| && opts[r.value].short == c
    ensures r.None? ==> forall i :: 0 <= i < |opts| ==> opts[i].short != c
  {
    if |opts| == 0 then None
    else if opts[0].short == c then Some(0)
    else match FindShort(opts[1..], c)
      case Some(i) => Some(i + 1)
      case None => None
  }

  /** The text before the first `=` of a long option, and whether there was one. */
  function SplitEq(s: string): (r: (string, bool))
    ensures !r.1 <==> '=' !in s
    ensures !r.1 ==> r.0 == s
    ensures '=' !in r.0
    ensures r.1 ==> |r.0| < |s| && s[..|r.0|] == r.0 && s[|r.0|] == '='
  {
    if |s| == 0 then ("", false)
    else if s[0] == '=' then ("", true)
    else var rest := SplitEq(s[1..]); ([s[0]] + rest.0, rest.1)
  }

  /** Some flag has the short name `c`. */
  predicate KnownShort(opts: seq<OptSpec>, c: char) {
    exists i :: 0 <= i < |opts| && opts[i].short == c
  }

  /** Some flag has the long name `name`. */
  predicate KnownLong(opts: seq<OptSpec>, name: string) {
    exists i :: 0 <= i < |opts| && opts[i].long == name
  }

  /** A short-option cluster such as `pQ` (after its dash): every letter
      must be a known flag; yields the indices named, in order, or refuses
      the first unknown letter. */
  function ScanShorts(opts: seq<OptSpec>, cs: string): (r: Result<seq<nat>, OptFail>)
    ensures r.Ok? <==> forall k :: 0 <= k < |cs| ==> KnownShort(opts, cs[k])
    ensures r.Ok? ==> |r.value| == |cs|
    ensures r.Ok? ==> forall k :: 0 <= k < |cs| ==> r.value[k] < |opts| && opts[r.value[k]].short == cs[k]
    ensures r.Err? ==> exists k :: 0 <= k < |cs| && !KnownShort(opts, cs[k])
                                  && (forall j :: 0 <= j < k ==> KnownShort(opts, cs[j]))
                                  && r.error == UnrecognizedOption([cs[k]])
  {
    if |cs| == 0 then Ok([])
    else match FindShort(opts, cs[0])
      case None => Err(UnrecognizedOption([cs[0]]))
      case Some(i) =>
        assert opts[i].short == cs[0];
        assert KnownShort(opts, cs[0]);
        assert forall k :: 1 <= k < |cs| ==> cs[k] == cs[1..][k - 1];
        match ScanShorts(opts, cs[1..])
        case Err(e) =>
          var k :| 0 <= k < |cs[1..]| && !KnownShort(opts, cs[1..][k])
                   && (forall j :: 0 <= j < k ==> KnownShort(opts, cs[1..][j]))
                   && e == UnrecognizedOption([cs[1..][k]]);
          assert cs[k + 1] == cs[1..][k];
          Err(e)
        case Ok(rest) => Ok([i] + rest)
  }

  /** `"--"` ends the options; `"--name"` is a long flag; `"-xyz"` a
      cluster of short flags; anything else (including `"-"`) a free
      argument, which is ignored. */
  predicate IsLongArg(a: string) {
    |a| > 2 && a[0] == '-' && a[1] == '-'
  }

  predicate IsShortArg(a: string) {
    |a| > 1 && a[0] == '-' && a[1] != '-'
  }

  /** The option indices one argument names, or why it is refused: a long
      flag whose name (the text before any `=`) is unknown, a known long
      flag given a value with `=`, or a cluster with an unknown letter.
      Free arguments name nothing. */
  function ScanArg(opts: seq<OptSpec>, a: string): (r: Result<seq<nat>, OptFail>)
    ensures r.Ok? ==> forall k :: 0 <= k < |r.value| ==> r.value[k] < |opts|
    ensures IsLongArg(a) ==>
              var sp := SplitEq(a[2..]);
              && (r.Ok? <==> KnownLong(opts, sp.0) && !sp.1)
              && (!KnownLong(opts, sp.0) ==> r == Err(UnrecognizedOption(sp.0)))
              && (KnownLong(opts, sp.0) && sp.1 ==> r == Err(UnexpectedArgument(sp.0)))
    ensures IsShortArg(a) ==> (r.Ok? <==> forall k :: 1 <= k < |a| ==> KnownShort(opts, a[k]))
    ensures IsShortArg(a) && r.Err? ==>
              exists k :: 1 <= k < |a| && !KnownShort(opts, a[k]) && r.error == UnrecognizedOption([a[k]])
    ensures !IsLongArg(a) && !IsShortArg(a) ==> r == Ok([])
  {
    if IsLongArg(a) then
      var (name, hasValue) := SplitEq(a[2..]);
      match FindLong(opts, name)
      case None => Err(UnrecognizedOption(name))
      case Some(i) => if hasValue then Err(UnexpectedArgument(name)) else Ok([i])
    else if IsShortArg(a) then
      var shorts := ScanShorts(opts, a[1..]);
      assert forall k :: 1 <= k < |a| ==> a[k] == a[1..][k - 1];
      if shorts.Err? then
        var k :| 0 <= k < |a| - 1 && !KnownShort(opts, a[1..][k]) && shorts.error == UnrecognizedOption([a[1..][k]]);
        assert a[k + 1] == a[1..][k];
        shorts
      else shorts
    else Ok([])
  }

  /** The option indices named by the arguments, in order, or the first
      unknown flag or flag given a value. */
  function Scan(opts: seq<OptSpec>, args: seq<string>): (r: Result<seq<nat>, OptFail>)
    ensures r.Ok? ==> forall k :: 0 <= k < |r.value| ==> r.value[k] < |opts|
    ensures r.Ok? <==> forall k :: 0 <= k < OptionsEnd(args) ==> ScanArg(opts, args[k]).Ok?
    ensures r.Err? ==> exists k :: 0 <= k < OptionsEnd(args) && ScanArg(opts, args[k]) == r
                                  && forall j :: 0 <= j < k ==> ScanArg(opts, args[j]).Ok?
  {
    if |args| == 0 || args[0] == "--" then Ok([])
    else
      assert OptionsEnd(args) == 1 + OptionsEnd(args[1..]);
      assert forall k :: 1 <= k < |args| ==> args[k] == args[1..][k - 1];
      match ScanArg(opts, args[0])
      case Err(e) => Err(e)
      case Ok(first) =>
        match Scan(opts, args[1..])
        case Err(e) =>
          var k :| 0 <= k < OptionsEnd(args[1..]) && ScanArg(opts, args[1..][k]) == Err(e)
                   && forall j :: 0 <= j < k ==> ScanArg(opts, args[1..][j]).Ok?;
          assert ScanArg(opts, args[k + 1]) == Err(e);
          Err(e)
        case Ok(rest) => Ok(first + rest)
  }

  /** How many times option `i` was named. */
  function Occurrences(occ: seq<nat>, i: nat): nat {
    multiset(occ)[i]
  }

  /** The first option, in declaration order from `from`, named twice. */
  function FirstDuplicated(opts: seq<OptSpec>, occ: seq<nat>, from: nat): (r: Option<nat>)
    requires from <= |opts|
    decreases |opts| - from
    ensures r.Some? ==> from <= r.value < |opts| && Occurrences(occ, r.value) > 1
    ensures r.Some? ==> forall i :: from <= i < r.value ==> Occurrences(occ, i) <= 1
    ensures r.None? ==> forall i :: from <= i < |opts| ==> Occurrences(occ, i) <= 1
  {
    if from == |opts| then None
    else if Occurrences(occ, from) > 1 then Some(from)
    else FirstDuplicated(opts, occ, from + 1)
  }

  /** The parsed flags: the indices of the options that were given. */
  datatype Matches = Matches(given: set<nat>)

  /** `Options::parse` for flag-only options. */
  function ParseOpts(opts: seq<OptSpec>, args: seq<string>): (r: Result<Matches, OptFail>)
    ensures r.Ok? <==> Scan(opts, args).Ok?
                       && forall i :: 0 <= i < |opts| ==> Occurrences(Scan(opts, args).value, i) <= 1
    ensures r.Ok? ==> forall i :: i in r.value.given <==> i in Scan(opts, args).value
    ensures Scan(opts, args).Err? ==> r == Err(Scan(opts, args).error)
    ensures Scan(opts, args).Ok? && r.Err? ==>
              exists i :: 0 <= i < |opts| && Occurrences(Scan(opts, args).value, i) > 1
                          && (forall j :: 0 <= j < i ==> Occurrences(Scan(opts, args).value, j) <= 1)
                          && r.error == OptionDuplicated(opts[i].long)
  {
    var occ :- Scan(opts, args);
    match FirstDuplicated(opts, occ, 0)
    case Some(i) => Err(OptionDuplicated(opts[i].long))
    case None => Ok(Matches(set i | i in occ))
  }

  /** `Matches::opt_present`. */
  predicate OptPresent(opts: seq<OptSpec>, m: Matches, name: string) {
    exists i :: 0 <= i < |opts| && opts[i].long == name && i in m.given
  }

  /** Reference reading of the command line: some argument before any
      `"--"` names the flag, by its long name or inside a short cluster. */
  predicate Names(a: string, sp: OptSpec) {
    a == "--" + sp.long || (IsShortArg(a) && sp.short in a[1..])
  }

  function OptionsEnd(args: seq<string>): (n: nat)
    ensures n <= |args|
    ensures forall k :: 0 <= k < n ==> args[k] != "--"
    ensures n < |args| ==> args[n] == "--"
  {
    if |args| == 0 || args[0] == "--" then 0 else 1 + OptionsEnd(args[1..])
  }

  predicate Mentions(args: seq<string>, sp: OptSpec) {
    exists k :: 0 <= k < OptionsEnd(args) && Names(args[k], sp)
  }

  /** One accepted argument names option `i` exactly when it spells it. */
  lemma ArgNames(opts: seq<OptSpec>, a: string, i: nat)
    requires WellFormedOpts(opts) && i < |opts|
    requires a != "--" && ScanArg(opts, a).Ok?
    ensures i in ScanArg(opts, a).value <==> Names(a, opts[i])
  {
    if IsLongArg(a) {
      var (name, hasValue) := SplitEq(a[2..]);
      var j := FindLong(opts, name).value;
      assert !hasValue && name == a[2..];
      assert a == "--" + name;
      assert ScanArg(opts, a).value == [j];
      assert !IsShortArg(a);
      assert Names(a, opts[i]) <==> i == j;
    } else if IsShortArg(a) {
      var shorts := ScanShorts(opts, a[1..]).value;
      assert a != "--" + opts[i].long;
      if i in shorts {
        var k :| 0 <= k < |shorts| && shorts[k] == i;
        assert a[1..][k] == opts[i].short;
      }
      if opts[i].short in a[1..] {
        var k :| 0 <= k < |a[1..]| && a[1..][k] == opts[i].short;
        assert shorts[k] == i;
      }
    } else {
      assert !Names(a, opts[i]);
    }
  }

  /** Before `"--"`, the first argument or one of the rest mentions a flag. */
  lemma MentionsFirstOrRest(args: seq<string>, sp: OptSpec)
    requires |args| > 0 && args[0] != "--"
    ensures Mentions(args, sp) <==> Names(args[0], sp) || Mentions(args[1..], sp)
  {
    assert OptionsEnd(args) == 1 + OptionsEnd(args[1..]);
    forall k | 1 <= k < OptionsEnd(args)
      ensures args[k] == args[1..][k - 1]
    {
    }
    if Mentions(args[1..], sp) {
      var k :| 0 <= k < OptionsEnd(args[1..]) && Names(args[1..][k], sp);
      assert Names(args[k + 1], sp);
    }
  }

  /** A successful scan names option `i` exactly when some argument before
      `"--"` mentions it. */
  lemma {:induction false} ScanMentions(opts: seq<OptSpec>, args: seq<string>, i: nat)
    requires WellFormedOpts(opts) && i < |opts|
    requires Scan(opts, args).Ok?
    ensures i in Scan(opts, args).value <==> Mentions(args, opts[i])
  {
    if |args| == 0 || args[0] == "--" {
      assert OptionsEnd(args) == 0;
    } else {
      ScanMentions(opts, args[1..], i);
      ArgNames(opts, args[0], i);
      MentionsFirstOrRest(args, opts[i]);
      assert Scan(opts, args).value == ScanArg(opts, args[0]).value + Scan(opts, args[1..]).value;
    }
  }

  /** An unknown long flag is refused by name. */
  lemma UnknownLongRefused()
    ensures ParseOpts(ProgramOpts(), ["--bogus"]) == Err(UnrecognizedOption("bogus"))
  {
    SingleArgParse(ProgramOpts(), "--bogus");
    BogusArgRefused();
  }

  /** `--bogus` names no flag of the program. */
  lemma BogusArgRefused()
    ensures ScanArg(ProgramOpts(), "--bogus") == Err(UnrecognizedOption("bogus"))
  {
    var opts := ProgramOpts();
    assert "--bogus"[2..] == "bogus";
    assert SplitEq("bogus") == ("bogus", false);
    assert !KnownLong(opts, "bogus");
  }

  /** A command line of one argument parses as that argument scans. */
  lemma SingleArgParse(opts: seq<OptSpec>, a: string)
    requires a != "--" && ScanArg(opts, a).Err?
    ensures ParseOpts(opts, [a]) == Err(ScanArg(opts, a).error)
  {
    assert [a][1..] == [];
  }

  /** A long argument's name is the text before its first `=`. */
  lemma SplitAtFirstEq(name: string, v: string)
    requires '=' !in name
    ensures SplitEq(name + "=" + v) == (name, true)
  {
    var s := name + "=" + v;
    var r := SplitEq(s);
    assert s[|name|] == '=';
    assert s[..|name|] == name;
  }

  /** A flag given a value with `=` is refused, whatever the value. */
  lemma FlagValueRefused(v: string)
    ensures ParseOpts(ProgramOpts(), ["--prompt=" + v]) == Err(UnexpectedArgument("prompt"))
  {
    var a := "--prompt=" + v;
    PromptValueArgRefused(v);
    SingleArgParse(ProgramOpts(), a);
  }

  /** `--prompt=` with a value is a known flag given a value. */
  lemma PromptValueArgRefused(v: string)
    ensures ScanArg(ProgramOpts(), "--prompt=" + v) == Err(UnexpectedArgument("prompt"))
  {
    var opts := ProgramOpts();
    assert opts[0].long == "prompt";
    assert "--prompt=" + v == "--" + "prompt" + "=" + v;
    ValueRefused(opts, "prompt", v);
  }

  /** A known long flag given a value is refused, whatever the value. */
  lemma ValueRefused(opts: seq<OptSpec>, name: string, v: string)
    requires KnownLong(opts, name) && '=' !in name
    ensures ScanArg(opts, "--" + name + "=" + v) == Err(UnexpectedArgument(name))
  {
    var a := "--" + name + "=" + v;
    assert a[2..] == name + "=" + v;
    SplitAtFirstEq(name, v);
  }

  /** An unknown letter in a cluster is refused. */
  lemma UnknownShortRefused()
    ensures ParseOpts(ProgramOpts(), ["-px"]) == Err(UnrecognizedOption("x"))
  {
    var opts := ProgramOpts();
    assert "-px"[1..] == "px" && "px"[1..] == "x";
    assert FindShort(opts, 'x').None?;
    assert ScanShorts(opts, "x") == Err(UnrecognizedOption("x"));
  }

  /** A flag given twice is refused by its long name. */
  lemma RepeatedFlagRefused()
    ensures ParseOpts(ProgramOpts(), ["-pp"]) == Err(OptionDuplicated("prompt"))
  {
    var opts := ProgramOpts();
    assert "-pp"[1..] == "pp" && "pp"[1..] == "p" && "p"[1..] == "";
    assert FindShort(opts, 'p') == Some(0);
    assert ScanShorts(opts, "") == Ok([]);
    assert [0] + [] == [0] && [0] + [0] == [0, 0];
    assert ScanShorts(opts, "p") == Ok([0]);
    assert ScanShorts(opts, "pp") == Ok([0, 0]);
    assert ScanArg(opts, "-pp") == Ok([0, 0]);
    assert ["-pp"][1..] == [] && ["-pp"][0] != "--";
    assert [0, 0] + [] == [0, 0];
    assert Scan(opts, ["-pp"]) == Ok([0, 0]);
    assert Occurrences([0, 0], 0) == 2;
  }

  /** The configuration file's three settings (`ConfigFile`). */
  datatype ConfigFile = ConfigFile(realmKeyId: string, apiUrl: string, authorizedUsers: seq<Value>)

  /** The configuration of one attempt (`Config`). */
  datatype Config = Config(
    realmKeyId: string,
    apiUrl: string,
    authorizedUsers: seq<Value>,
    homeDir: Path,
    presence: bool,
    prompt: bool,
    qr: bool,
    mobileUrl: bool)

  /** `get`: a key of the table, or `MissingField`. */
  function Get(table: Table, key: string): (r: Result<Value, ConfigError>)
    ensures r.Ok? <==> key in table
    ensures r.Ok? ==> r.value == table[key]
    ensures r.Err? ==> r.error == MissingField(key)
  {
    if key in table then Ok(table[key]) else Err(MissingField(key))
  }

  /** `as_str`: a string value, or a type error naming the actual type. */
  function AsStr(v: Value): (r: Result<string, ConfigError>)
    ensures r.Ok? <==> v.VString?
    ensures r.Ok? ==> r.value == v.s
    ensures r.Err? ==> r.error == TypeError("String", TypeStr(v))
  {
    if v.VString? then Ok(v.s) else Err(TypeError("String", TypeStr(v)))
  }

  /** `as_slice`: an array value, or a type error naming the actual type. */
  function AsSlice(v: Value): (r: Result<seq<Value>, ConfigError>)
    ensures r.Ok? <==> v.VArray?
    ensures r.Ok? ==> r.value == v.items
    ensures r.Err? ==> r.error == TypeError("Array", TypeStr(v))
  {
    if v.VArray? then Ok(v.items) else Err(TypeError("Array", TypeStr(v)))
  }

  /** The `api_url` text used: the table's string, else the production
      address (whether the key is missing or holds a non-string). */
  function ApiUrlText(table: Table): (u: string)
    ensures "api_url" in table && table["api_url"].VString? ==> u == table["api_url"].s
    ensures !("api_url" in table && table["api_url"].VString?) ==> u == DefaultApiUrl
  {
    match Get(table, "api_url")
    case Err(_) => DefaultApiUrl
    case Ok(v) => AsStr(v).ToOption().UnwrapOr(DefaultApiUrl)
  }

  /** `ConfigFile::from_table`: checks, in this order, the URL, then
      `realm_key_id`, then `authorized_users`. */
  function FromTable(table: Table, parseUrl: string -> Result<string, string>): (r: Result<ConfigFile, ConfigError>)
    ensures parseUrl(ApiUrlText(table)).Err? ==> r == Err(InvalidUrl(parseUrl(ApiUrlText(table)).error))
    ensures parseUrl(ApiUrlText(table)).Ok? && "realm_key_id" !in table ==>
              r == Err(MissingField("realm_key_id"))
    ensures parseUrl(ApiUrlText(table)).Ok? && "realm_key_id" in table && !table["realm_key_id"].VString? ==>
              r == Err(TypeError("String", TypeStr(table["realm_key_id"])))
    ensures parseUrl(ApiUrlText(table)).Ok? && "realm_key_id" in table && table["realm_key_id"].VString? ==>
              && ("authorized_users" !in table ==> r == Err(MissingField("authorized_users")))
              && ("authorized_users" in table && !table["authorized_users"].VArray? ==>
                    r == Err(TypeError("Array", TypeStr(table["authorized_users"]))))
    ensures r.Ok? <==> parseUrl(ApiUrlText(table)).Ok?
                       && "realm_key_id" in table && table["realm_key_id"].VString?
                       && "authorized_users" in table && table["authorized_users"].VArray?
    ensures r.Ok? ==> r.value == ConfigFile(table["realm_key_id"].s,
                                            parseUrl(ApiUrlText(table)).value,
                                            table["authorized_users"].items)
  {
    var url :- parseUrl(ApiUrlText(table)).MapErr(e => InvalidUrl(e));
    var keyValue :- Get(table, "realm_key_id");
    var key :- AsStr(keyValue);
    var usersValue :- Get(table, "authorized_users");
    var users :- AsSlice(usersValue);
    Ok(ConfigFile(key, url, users))
  }

  /** `get_auth_path`: `<home>/.config/tozny/authorized.toml`. */
  function GetAuthPath(home: Path): (p: Path)
    ensures |p| == |home| + 3 && p[..|home|] == home
    ensures p[|home|..] == [".config", "tozny", "authorized.toml"]
  {
    home + [".config", "tozny", "authorized.toml"]
  }

  /** `get_home`: the passwd entry's home directory, when it exists. */
  function GetHome(passwdHome: string -> Option<Path>, fs: Fs, user: string): (r: Option<Path>)
    ensures r.Some? <==> passwdHome(user).Some? && Exists(fs, passwdHome(user).value)
    ensures r.Some? ==> r.value == passwdHome(user).value
  {
    match passwdHome(user)
    case Some(p) => if Exists(fs, p) then Some(p) else None
    case None => None
  }

  /** `read_config`: read the file, parse it, validate the table. */
  function ReadConfig(fs: Fs, path: Path, parseToml: string -> Option<Table>,
                      parseUrl: string -> Result<string, string>): (r: Result<ConfigFile, ConfigError>)
    ensures ReadFile(fs, path).None? ==> r == Err(ErrorReading)
    ensures ReadFile(fs, path).Some? && parseToml(ReadFile(fs, path).value).None? ==> r == Err(ParseError)
    ensures ReadFile(fs, path).Some? && parseToml(ReadFile(fs, path).value).Some? ==>
              r == FromTable(parseToml(ReadFile(fs, path).value).value, parseUrl)
  {
    match ReadFile(fs, path)
    case None => Err(ErrorReading)
    case Some(text) =>
      match parseToml(text)
      case None => Err(ParseError)
      case Some(table) => FromTable(table, parseUrl)
  }

  /** A successful parse of the program's flags reports each flag present
      exactly when the command line mentions it. */
  lemma FlagPresence(args: seq<string>, i: nat)
    requires ParseOpts(ProgramOpts(), args).Ok? && i < 4
    ensures OptPresent(ProgramOpts(), ParseOpts(ProgramOpts(), args).value, ProgramOpts()[i].long)
            == Mentions(args, ProgramOpts()[i])
  {
    var opts := ProgramOpts();
    var m := ParseOpts(opts, args).value;
    ScanMentions(opts, args, i);
    if OptPresent(opts, m, opts[i].long) {
      var j :| 0 <= j < |opts| && opts[j].long == opts[i].long && j in m.given;
      assert j == i;
    }
  }

  /** What `Config::build` consults beyond its arguments: the passwd lookup,
      the filesystem, and the TOML and URL parsers. */
  datatype ConfigEnv = ConfigEnv(
    passwdHome: string -> Option<Path>,
    fs: Fs,
    parseToml: string -> Option<Table>,
    parseUrl: string -> Result<string, string>)

  /** `Config::build`: options first, then the home directory, then the
      authorization file's presence, then its contents. The feature flags
      follow the command line: `prompt` is on exactly when -p/--prompt is
      given; `presence`, `qr` and `mobile_url` are on exactly when their
      -P/--no-presence, -Q/--no-qr and -M/--no-mobile switch is absent. */
  function Build(user: string, args: seq<string>, env: ConfigEnv): (r: Result<Config, ConfigError>)
    ensures ParseOpts(ProgramOpts(), args).Err? ==>
              r == Err(GetoptsError(ParseOpts(ProgramOpts(), args).error))
    ensures ParseOpts(ProgramOpts(), args).Ok? && GetHome(env.passwdHome, env.fs, user).None? ==>
              r == Err(NoHomeDir)
    ensures ParseOpts(ProgramOpts(), args).Ok? && GetHome(env.passwdHome, env.fs, user).Some?
            && !IsFile(env.fs, GetAuthPath(GetHome(env.passwdHome, env.fs, user).value)) ==>
              r == Err(MissingAuthFile(GetAuthPath(GetHome(env.passwdHome, env.fs, user).value)))
    ensures ParseOpts(ProgramOpts(), args).Ok? && GetHome(env.passwdHome, env.fs, user).Some?
            && IsFile(env.fs, GetAuthPath(GetHome(env.passwdHome, env.fs, user).value))
            && ReadConfig(env.fs, GetAuthPath(GetHome(env.passwdHome, env.fs, user).value), env.parseToml, env.parseUrl).Err? ==>
              r == Err(ReadConfig(env.fs, GetAuthPath(GetHome(env.passwdHome, env.fs, user).value), env.parseToml, env.parseUrl).error)
    ensures r.Ok? ==>
              && GetHome(env.passwdHome, env.fs, user) == Some(r.value.homeDir)
              && ReadConfig(env.fs, GetAuthPath(r.value.homeDir), env.parseToml, env.parseUrl)
                 == Ok(ConfigFile(r.value.realmKeyId, r.value.apiUrl, r.value.authorizedUsers))
    ensures r.Ok? ==>
              && r.value.prompt == Mentions(args, OptSpec('p', "prompt"))
              && r.value.qr == !Mentions(args, OptSpec('Q', "no-qr"))
              && r.value.presence == !Mentions(args, OptSpec('P', "no-presence"))
              && r.value.mobileUrl == !Mentions(args, OptSpec('M', "no-mobile"))
  {
    var opts := ProgramOpts();
    var m :- ParseOpts(opts, args).MapErr(f => GetoptsError(f));
    var home :- GetHome(env.passwdHome, env.fs, user).ToResult(NoHomeDir);
    var auth := GetAuthPath(home);
    if !IsFile(env.fs, auth) then Err(MissingAuthFile(auth))
    else
      var file :- ReadConfig(env.fs, auth, env.parseToml, env.parseUrl);
      FlagPresence(args, 0);
      FlagPresence(args, 1);
      FlagPresence(args, 2);
      FlagPresence(args, 3);
      Ok(Config(
        realmKeyId := file.realmKeyId,
        apiUrl := file.apiUrl,
        authorizedUsers := file.authorizedUsers,
        homeDir := home,
        prompt := OptPresent(opts, m, "prompt"),
        presence := !OptPresent(opts, m, "no-presence"),
        qr := !OptPresent(opts, m, "no-qr"),
        mobileUrl := !OptPresent(opts, m, "no-mobile")))
  }

  /** `Config::is_authorized`: some string entry of `authorized_users`
      equals the login's user id (exactly, case-sensitively); entries of
      other types never match. */
  function IsAuthorized(config: Config, login: Login): (ok: bool)
    ensures ok <==> exists i :: 0 <= i < |config.authorizedUsers| && config.authorizedUsers[i] == VString(login.userId)
  {
    login.userId in StringEntries(config.authorizedUsers)
  }

  /** The string entries of a TOML array, in order (`filter_map(as_str)`). */
  function StringEntries(vs: seq<Value>): (r: seq<string>)
    ensures |r| <= |vs|
    ensures forall s :: s in r <==> exists i :: 0 <= i < |vs| && vs[i] == VString(s)
  {
    if |vs| == 0 then []
    else
      var rest := StringEntries(vs[1..]);
      assert forall i :: 1 <= i < |vs| ==> vs[i] == vs[1..][i - 1];
      match vs[0]
      case VString(s) => [s] + rest
      case _ => rest
  }
}

=== FILE: filesystem.dfy ===
/** An abstract POSIX-like filesystem, just rich enough for the calls the
    module makes: `stat`, `mkdir`, opening a file for reading, opening it
    truncated for writing, and `chown`.

    Failures that the real OS decides (permissions, read-only mounts, a full
    disk, lack of privilege) are not derived from modes and owners; they are
    part of the state: `locked` is the set of paths on which every open,
    mkdir and chown by this process fails, `diskFull` makes every write fail
    after its open succeeded, and `privileged` says whether chown is allowed
    at all. */
module FileSystem {
  import opened Results

  /** A path as its list of components; `home + [".cache"]` is `home.push(".cache")`. */
  type Path = seq<string>

  /** Numeric owner of a file, as `chown` sets it. */
  datatype Owner = Owner(uid: int, gid: int)

  datatype Node = Dir | File(data: string, owner: Owner)

  datatype Fs = Fs(
    nodes: map<Path, Node>,
    locked: set<Path>,
    diskFull: bool,
    privileged: bool,
    /** The identity new files are created with (the writing process's). */
    procOwner: Owner)

  predicate IsDir(fs: Fs, p: Path) {
    p in fs.nodes && fs.nodes[p].Dir?
  }

  predicate IsFile(fs: Fs, p: Path) {
    p in fs.nodes && fs.nodes[p].File?
  }

  /** `Path::exists`. */
  predicate Exists(fs: Fs, p: Path) {
    p in fs.nodes
  }

  function Parent(p: Path): Path
    requires |p| > 0
  {
    p[..|p| - 1]
  }

  /** `fs::stat`: the node at `p`, or none when the lookup fails. */
  function Stat(fs: Fs, p: Path): (r: Option<Node>)
    ensures r.Some? <==> p in fs.nodes
    ensures r.Some? ==> r.value == fs.nodes[p]
  {
    if p in fs.nodes then Some(fs.nodes[p]) else None
  }

  /** `fs::mkdir`: creates an empty directory at a path that does not exist
      yet, below an existing directory, unless the path is locked. */
  function Mkdir(fs: Fs, p: Path): (r: Option<Fs>)
    requires |p| > 0
    ensures r.Some? <==> p !in fs.nodes && p !in fs.locked && IsDir(fs, Parent(p))
    ensures r.Some? ==> r.value == fs.(nodes := fs.nodes[p := Dir])
  {
    if p !in fs.nodes && p !in fs.locked && IsDir(fs, Parent(p)) then
      Some(fs.(nodes := fs.nodes[p := Dir]))
    else
      None
  }

  /** `File::open` followed by `read_to_string`: the whole contents of a
      regular, unlocked file. Opening a directory may succeed on a real
      system, but reading it then fails, so both are none here. */
  function ReadFile(fs: Fs, p: Path): (r: Option<string>)
    ensures r.Some? <==> IsFile(fs, p) && p !in fs.locked
    ensures r.Some? ==> r.value == fs.nodes[p].data
  {
    if IsFile(fs, p) && p !in fs.locked then Some(fs.nodes[p].data) else None
  }

  /** `File::open_mode(p, Truncate, Write)` followed by one `write_str(data)`.
      The open creates a missing file (owned by the writing process) below
      an existing directory and truncates an existing one (keeping its
      owner); it fails on a directory or a locked path. On a full disk the
      open still truncates, and the write then fails, leaving the file
      empty. The result is the new state and whether the write succeeded. */
  function WriteTruncate(fs: Fs, p: Path, data: string): (r: (Fs, bool))
    requires |p| > 0
    ensures r.1 <==> !fs.diskFull && p !in fs.locked
                     && (IsFile(fs, p) || (p !in fs.nodes && IsDir(fs, Parent(p))))
    ensures r.1 ==> IsFile(r.0, p) && r.0.nodes[p].data == data
    ensures forall q :: q != p ==> (q in r.0.nodes <==> q in fs.nodes)
    ensures forall q :: q in fs.nodes && q != p ==> r.0.nodes[q] == fs.nodes[q]
    ensures r.0.locked == fs.locked && r.0.diskFull == fs.diskFull
    ensures r.0.privileged == fs.privileged && r.0.procOwner == fs.procOwner
  {
    var canOpen := p !in fs.locked
                  && (IsFile(fs, p) || (p !in fs.nodes && IsDir(fs, Parent(p))));
    if !canOpen then
      (fs, false)
    else
      var owner := if IsFile(fs, p) then fs.nodes[p].owner else fs.procOwner;
      var written := if fs.diskFull then "" else data;
      (fs.(nodes := fs.nodes[p := File(written, owner)]), !fs.diskFull)
  }

  /** `fs::chown`: needs privilege and an existing, unlocked path. The owner
      of a directory is not tracked, so chown on one changes nothing. */
  function Chown(fs: Fs, p: Path, owner: Owner): (r: Option<Fs>)
    ensures r.Some? <==> fs.privileged && p in fs.nodes && p !in fs.locked
    ensures r.Some? && IsFile(fs, p) ==>
              r.value == fs.(nodes := fs.nodes[p := File(fs.nodes[p].data, owner)])
    ensures r.Some? && !IsFile(fs, p) ==> r.value == fs
  {
    if fs.privileged && p in fs.nodes && p !in fs.locked then
      if IsFile(fs, p) then Some(fs.(nodes := fs.nodes[p := File(fs.nodes[p].data, owner)]))
      else Some(fs)
    else
      None
  }
}

=== FILE: presence.dfy ===
/** `src/presence.rs`: the per-user presence cache, a single file
    `<home>/.cache/toznyauth_pam_presence` holding the presence token of the
    user's last challenge. Every operation is best effort: failures make the
    cache look empty and are never reported. */
module Presence {
  import opened Results
  import opened FileSystem

  /** What the `id` command prints on standard output for a flag (`-u` or
      `-g`) and a user, when it runs and exits successfully. */
  datatype OsIds = OsIds(idOutput: (string, string) -> Option<string>)

  const IsizeMin: int := -0x8000_0000_0000_0000
  const IsizeMax: int := 0x7FFF_FFFF_FFFF_FFFF

  predicate IsDigit(c: char) {
    '0' <= c <= '9'
  }

  function DigitValue(c: char): nat
    requires IsDigit(c)
  {
    c as int - '0' as int
  }

  /** The value of a string of decimal digits. */
  function DigitsValue(s: string): nat
    requires forall i :: 0 <= i < |s| ==> IsDigit(s[i])
  {
    if |s| == 0 then 0 else DigitsValue(s[..|s| - 1]) * 10 + DigitValue(s[|s| - 1])
  }

  /** `isize::from_str`: an optional minus sign, then at least one decimal
      digit and nothing else, within the 64-bit range. */
  function ParseIsize(s: string): (r: Option<int>)
    ensures r.Some? ==> IsizeMin <= r.value <= IsizeMax
    ensures r.Some? ==> |s| > 0 && IsDigit(s[|s| - 1])
  {
    var negative := |s| > 0 && s[0] == '-';
    var digits := if negative then s[1..] else s;
    if |digits| == 0 || !(forall i :: 0 <= i < |digits| ==> IsDigit(digits[i])) then None
    else
      var magnitude: int := DigitsValue(digits);
      var v := if negative then -magnitude else magnitude;
      if IsizeMin <= v <= IsizeMax then Some(v) else None
  }

  /** `get_id` as written: the command's output is parsed as it is. */
  function GetIdAsWritten(output: Option<string>): (r: Option<int>)
    ensures r.Some? ==> output.Some? && ParseIsize(output.value) == r
  {
    match output
    case None => None
    case Some(text) => ParseIsize(text)
  }

  /** `id` ends its output with a newline, so the as-written lookup never
      resolves: for `id -u` printing "1000\n" it yields none. */
  lemma IdNewlineRejected(text: string)
    ensures GetIdAsWritten(Some(text + "\n")) == None
    ensures GetIdAsWritten(Some("1000\n")) == None
  {
    assert ("1000\n")[|"1000\n"| - 1] == '\n';
    assert (text + "\n")[|text + "\n"| - 1] == '\n';
  }

  /** The output without its trailing line break. */
  function TrimNewline(s: string): (t: string)
    ensures |s| > 0 && s[|s| - 1] == '\n' ==> t == s[..|s| - 1]
    ensures !(|s| > 0 && s[|s| - 1] == '\n') ==> t == s
  {
    if |s| > 0 && s[|s| - 1] == '\n' then s[..|s| - 1] else s
  }

  /** `get_id` as intended: the number on the output's one line. */
  function GetId(output: Option<string>): (r: Option<int>)
    ensures r.Some? ==> output.Some? && ParseIsize(TrimNewline(output.value)) == r
    ensures output.None? ==> r.None?
  {
    match output
    case None => None
    case Some(text) => ParseIsize(TrimNewline(text))
  }

  /** The decimal digits of `n`, as `id` prints a number. */
  function ShowNat(n: nat): (s: string)
    ensures |s| > 0 && forall i :: 0 <= i < |s| ==> IsDigit(s[i])
  {
    var d := ['0' + (n % 10) as char];
    if n < 10 then d else ShowNat(n / 10) + d
  }

  /** Printing a number and reading it back gives the number. */
  lemma {:induction false} ShowNatRoundTrip(n: nat)
    ensures DigitsValue(ShowNat(n)) == n
  {
    var s := ShowNat(n);
    if n >= 10 {
      ShowNatRoundTrip(n / 10);
      assert s[..|s| - 1] == ShowNat(n / 10);
    }
  }

  /** The corrected lookup reads back the id that `id` prints. */
  lemma GetIdReadsIdOutput(n: nat)
    requires n <= IsizeMax
    ensures GetId(Some(ShowNat(n) + "\n")) == Some(n)
  {
    ShowNatRoundTrip(n);
    var s := ShowNat(n);
    assert TrimNewline(s + "\n") == s;
    assert s[0] != '-';
  }

  function CacheDir(home: Path): (p: Path)
    ensures |p| == |home| + 1 && p[..|home|] == home
    ensures p[|home|..] == [".cache"]
  {
    home + [".cache"]
  }

  function PresencePath(home: Path): (p: Path)
    ensures |p| == |home| + 2 && Parent(p) == CacheDir(home)
    ensures p[..|home|] == home && p[|home|..] == [".cache", "toznyauth_pam_presence"]
  {
    CacheDir(home) + ["toznyauth_pam_presence"]
  }

  /** `get_presence_file`: the cache file's path when `<home>/.cache` is a
      directory, or was missing and could be created; none when it exists
      as something else or cannot be created. The only change to the
      filesystem is the created directory. */
  function GetPresenceFile(fs: Fs, home: Path): (r: (Option<Path>, Fs))
    ensures r.0.Some? ==> r.0.value == PresencePath(home) && IsDir(r.1, CacheDir(home))
    ensures r.0.Some? <==> IsDir(fs, CacheDir(home)) || Mkdir(fs, CacheDir(home)).Some?
    ensures Exists(fs, CacheDir(home)) && !IsDir(fs, CacheDir(home)) ==> r.0.None?
    ensures r.1 == fs || (!Exists(fs, CacheDir(home)) && r.1 == fs.(nodes := fs.nodes[CacheDir(home) := Dir]))
    ensures r.0.None? ==> r.1 == fs
  {
    var dir := CacheDir(home);
    var made: Option<Fs> :=
      match Stat(fs, dir)
      case Some(node) => if node.Dir? then Some(fs) else None
      case None => Mkdir(fs, dir);
    match made
    case None => (None, fs)
    case Some(fs') => (Some(PresencePath(home)), fs')
  }

  /** `get_presence`: the cache file's contents, unchanged, or none when
      there is no usable cache directory or the file cannot be read. */
  function GetPresence(fs: Fs, home: Path): (r: (Option<string>, Fs))
    ensures r.1 == GetPresenceFile(fs, home).1
    ensures r.0.Some? <==> GetPresenceFile(fs, home).0.Some? && ReadFile(r.1, PresencePath(home)).Some?
    ensures r.0.Some? ==> r.0.value == r.1.nodes[PresencePath(home)].data
  {
    var (path, fs') := GetPresenceFile(fs, home);
    match path
    case None => (None, fs')
    case Some(p) => (ReadFile(fs', p), fs')
  }

  /** `save_presence`: truncate the cache file and write the token; then,
      only when both the uid and the gid of `user` resolve through `getId`,
      hand the file to that user. Nothing is reported; nothing but the
      cache directory and file changes. `getId` is the id lookup: the
      source's `GetIdAsWritten`, or the corrected `GetId`. */
  function SavePresence(getId: Option<string> -> Option<int>, fs: Fs, ids: OsIds, user: string,
                        home: Path, token: string): (fs': Fs)
    ensures Exists(fs, CacheDir(home)) && !IsDir(fs, CacheDir(home)) ==> fs' == fs
    ensures forall q :: q != CacheDir(home) && q != PresencePath(home) ==>
              (q in fs'.nodes <==> q in fs.nodes) && (q in fs.nodes ==> fs'.nodes[q] == fs.nodes[q])
    ensures fs'.locked == fs.locked && fs'.diskFull == fs.diskFull
    ensures fs'.privileged == fs.privileged && fs'.procOwner == fs.procOwner
  {
    var (path, fs1) := GetPresenceFile(fs, home);
    match path
    case None => fs1
    case Some(p) =>
      var fs2 := WriteTruncate(fs1, p, token).0;
      match (getId(ids.idOutput("-u", user)), getId(ids.idOutput("-g", user)))
      case (Some(uid), Some(gid)) => Chown(fs2, p, Owner(uid, gid)).UnwrapOr(fs2)
      case _ => fs2
  }

  /** The cache can be written: the cache directory is there or can be
      made, the file is neither locked nor a directory, and the disk takes
      the write. */
  predicate CacheWritable(fs: Fs, home: Path) {
    && (IsDir(fs, CacheDir(home)) || Mkdir(fs, CacheDir(home)).Some?)
    && PresencePath(home) !in fs.locked
    && !IsDir(fs, PresencePath(home))
    && !fs.diskFull
  }

  /** A save on a writable cache leaves exactly the token in the file. */
  lemma SaveWritesToken(getId: Option<string> -> Option<int>, fs: Fs, ids: OsIds, user: string, home: Path, token: string)
    requires CacheWritable(fs, home)
    ensures var fs' := SavePresence(getId, fs, ids, user, home, token);
            IsDir(fs', CacheDir(home)) && IsFile(fs', PresencePath(home))
            && fs'.nodes[PresencePath(home)].data == token
  {
    var p := PresencePath(home);
    var (path, fs1) := GetPresenceFile(fs, home);
    assert p != CacheDir(home);
    assert IsDir(fs1, Parent(p));
    var fs2 := WriteTruncate(fs1, p, token).0;
    assert IsFile(fs2, p) && fs2.nodes[p].data == token;
    assert IsDir(fs2, CacheDir(home));
  }

  /** Save followed by load on the same home returns the saved token,
      whatever the ownership step does. */
  lemma SaveThenLoad(getId: Option<string> -> Option<int>, fs: Fs, ids: OsIds, user: string, home: Path, token: string)
    requires CacheWritable(fs, home)
    ensures GetPresence(SavePresence(getId, fs, ids, user, home, token), home).0 == Some(token)
  {
    var fs' := SavePresence(getId, fs, ids, user, home, token);
    SaveWritesToken(getId, fs, ids, user, home, token);
    assert GetPresenceFile(fs', home) == (Some(PresencePath(home)), fs');
  }

  /** When `<home>/.cache` exists but is not a directory, the cache is
      off: loading finds nothing and saving writes nothing. */
  lemma BlockedCache(getId: Option<string> -> Option<int>, fs: Fs, ids: OsIds, user: string, home: Path, token: string)
    requires Exists(fs, CacheDir(home)) && !IsDir(fs, CacheDir(home))
    ensures GetPresence(fs, home) == (None, fs)
    ensures SavePresence(getId, fs, ids, user, home, token) == fs
  {
  }

  /** Ownership moves to the user only when both ids resolve: otherwise an
      existing cache file keeps its owner, and a new one belongs to the
      writing process. */
  lemma SaveOwnership(getId: Option<string> -> Option<int>, fs: Fs, ids: OsIds, user: string, home: Path, token: string)
    requires CacheWritable(fs, home)
    ensures var fs' := SavePresence(getId, fs, ids, user, home, token);
            var owner := fs'.nodes[PresencePath(home)].owner;
            var uid := getId(ids.idOutput("-u", user));
            var gid := getId(ids.idOutput("-g", user));
            && (uid.Some? && gid.Some? && fs.privileged ==> owner == Owner(uid.value, gid.value))
            && (!(uid.Some? && gid.Some? && fs.privileged) ==>
                  owner == (if IsFile(fs, PresencePath(home)) then fs.nodes[PresencePath(home)].owner
                            else fs.procOwner))
  {
    SaveWritesToken(getId, fs, ids, user, home, token);
    var p := PresencePath(home);
    var (path, fs1) := GetPresenceFile(fs, home);
    assert p != CacheDir(home);
    assert IsFile(fs1, p) <==> IsFile(fs, p);
    assert IsFile(fs, p) ==> fs1.nodes[p] == fs.nodes[p];
  }

  /** `id` prints a number followed by a newline. */
  predicate PrintsIds(ids: OsIds, user: string, uid: nat, gid: nat) {
    && ids.idOutput("-u", user) == Some(ShowNat(uid) + "\n")
    && ids.idOutput("-g", user) == Some(ShowNat(gid) + "\n")
  }

  /** As written, the save never gives the cache file away when `id`
      answers normally: an existing file keeps its owner and a new one
      belongs to the writing process. */
  lemma AsWrittenKeepsOwner(fs: Fs, ids: OsIds, user: string, home: Path, token: string, uid: nat, gid: nat)
    requires CacheWritable(fs, home) && PrintsIds(ids, user, uid, gid)
    ensures var fs' := SavePresence(GetIdAsWritten, fs, ids, user, home, token);
            fs'.nodes[PresencePath(home)].owner
            == (if IsFile(fs, PresencePath(home)) then fs.nodes[PresencePath(home)].owner else fs.procOwner)
  {
    IdNewlineRejected(ShowNat(uid));
    SaveOwnership(GetIdAsWritten, fs, ids, user, home, token);
  }

  /** With the corrected lookup, a privileged save gives the cache file to
      the user whose ids `id` prints. */
  lemma CorrectedGivesFileToUser(fs: Fs, ids: OsIds, user: string, home: Path, token: string, uid: nat, gid: nat)
    requires CacheWritable(fs, home) && PrintsIds(ids, user, uid, gid)
    requires fs.privileged && uid <= IsizeMax && gid <= IsizeMax
    ensures SavePresence(GetId, fs, ids, user, home, token).nodes[PresencePath(home)].owner == Owner(uid, gid)
  {
    GetIdReadsIdOutput(uid);
    GetIdReadsIdOutput(gid);
    SaveOwnership(GetId, fs, ids, user, home, token);
  }
}

=== FILE: qr_term.dfy ===
/** The terminal QR renderer of `src/qr_term.rs`: a square bit matrix (a QR
    code, `true` = dark module) becomes lines of text for a console, either
    one two-space colour block per bit (`OutputAscii`) or two vertically
    adjacent bits per half-block glyph (`OutputUnicode`). Each line is
    returned with its trailing newline; the text written to the writer is
    `Concat` of the lines. */
module QrTerm {

  /** A square matrix of bits, indexed `m[y][x]` (row `y`, column `x`); the
      source's `qr[(x, y)]` is `m[y][x]`. */
  type BitMatrix = m: seq<seq<bool>> | forall i :: 0 <= i < |m| ==> |m[i]| == |m| witness []

  /** Colour escapes. */
  const BlackFg: string := "\U{1B}[30m"
  const WhiteBg: string := "\U{1B}[47m"
  const Reset: string := "\U{1B}[0m"

  /** The two ASCII-mode blocks: a two-space cell on a black or white background. */
  const Black: string := "\U{1B}[40m  \U{1B}[0m"
  const White: string := "\U{1B}[47m  \U{1B}[0m"

  /** The four Unicode-mode glyphs, named (upper, lower) with W = clear, B = set. */
  const WW: char := ' '
  const WB: char := '\U{2584}'  // lower half block
  const BW: char := '\U{2580}'  // upper half block
  const BB: char := '\U{2588}'  // full block

  /** The padding the session driver renders with. */
  const InlinePad: string := "        "

  /** Independent reading of a glyph: is its upper (lower) half inked? */
  predicate InkTop(c: char) {
    c == BW || c == BB
  }

  predicate InkBottom(c: char) {
    c == WB || c == BB
  }

  predicate IsGlyph(c: char) {
    c == WW || c == WB || c == BW || c == BB
  }

  /** `glyph`: the character whose upper half shows `upper` and whose lower
      half shows `lower`. */
  function Glyph(upper: bool, lower: bool): (c: char)
    ensures IsGlyph(c)
    ensures InkTop(c) == upper && InkBottom(c) == lower
  {
    match (upper, lower)
    case (false, false) => WW
    case (false, true) => WB
    case (true, false) => BW
    case (true, true) => BB
  }

  /** The inverse of `Glyph` on the four glyphs. */
  function Unglyph(c: char): (b: (bool, bool)) {
    (InkTop(c), InkBottom(c))
  }

  /** `glyph` is a bijection between the four bit pairs and the four glyphs. */
  lemma GlyphBijective(upper: bool, lower: bool, c: char)
    ensures Unglyph(Glyph(upper, lower)) == (upper, lower)
    ensures IsGlyph(c) ==> Glyph(Unglyph(c).0, Unglyph(c).1) == c
  {
  }

  /** `block`: the (upper, lower) bits at column `x` of rows `y` and `y + 1`;
      below the last row the lower bit is clear. */
  function Block(m: BitMatrix, x: nat, y: nat): (b: (bool, bool))
    requires x < |m| && y < |m|
    ensures b.0 == m[y][x]
    ensures y + 1 < |m| ==> b.1 == m[y + 1][x]
    ensures y + 1 == |m| ==> !b.1
  {
    var last := |m| - 1;
    (m[y][x], if last > y then m[y + 1][x] else false)
  }

  /** `black_on_white`: black foreground, white background. */
  function BlackOnWhite(): (s: string)
    ensures |s| == 10
  {
    BlackFg + WhiteBg
  }

  /** `reset_colors`. */
  function ResetColors(): (s: string)
    ensures |s| == 4
  {
    Reset
  }

  /** The text of a list of writes, one after the other. */
  function Concat(ss: seq<string>): (r: string)
    ensures |ss| == 0 ==> r == ""
  {
    if |ss| == 0 then "" else ss[0] + Concat(ss[1..])
  }

  /** Concatenating `n` strings of width `w` gives `n * w` characters. */
  lemma {:induction false} ConcatLength(ss: seq<string>, w: nat)
    requires forall i :: 0 <= i < |ss| ==> |ss[i]| == w
    ensures |Concat(ss)| == |ss| * w
  {
    if |ss| > 0 {
      ConcatLength(ss[1..], w);
    }
  }

  /** ... and places the `i`-th of them at offset `i * w`. */
  lemma {:induction false} ConcatSlice(ss: seq<string>, w: nat, i: nat)
    requires forall j :: 0 <= j < |ss| ==> |ss[j]| == w
    requires i < |ss|
    ensures i * w + w <= |Concat(ss)|
    ensures Concat(ss)[i * w .. i * w + w] == ss[i]
  {
    ConcatLength(ss, w);
    ConcatLength(ss[1..], w);
    var rest := Concat(ss[1..]);
    if i > 0 {
      ConcatSlice(ss[1..], w, i - 1);
      var off := (i - 1) * w;
      assert i * w == off + w;
      assert Concat(ss)[i * w .. i * w + w] == rest[off .. off + w];
    }
  }

  /** `n` copies of `s`, written one after the other. */
  function Repeat(s: string, n: nat): (r: string)
    ensures |r| == n * |s|
  {
    if n == 0 then "" else s + Repeat(s, n - 1)
  }

  /** Copy `i` of `Repeat(s, n)` sits at offset `i * |s|`. */
  lemma {:induction false} RepeatSlot(s: string, n: nat, i: nat)
    requires i < n
    ensures i * |s| + |s| <= n * |s|
    ensures Repeat(s, n)[i * |s| .. i * |s| + |s|] == s
  {
    if i > 0 {
      RepeatSlot(s, n - 1, i - 1);
      var off := (i - 1) * |s|;
      assert i * |s| == off + |s|;
      assert Repeat(s, n)[i * |s| .. i * |s| + |s|] == Repeat(s, n - 1)[off .. off + |s|];
    }
  }

  /** `horiz_border`: pad, the colour escapes, `size + 2` copies of `unit`,
      the reset and a newline. */
  function HorizBorder(size: nat, pad: string, unit: string): (r: string)
    ensures |r| == |pad| + 10 + (size + 2) * |unit| + 5
    ensures r[..|pad|] == pad
    ensures r[|pad| .. |pad| + 10] == BlackOnWhite()
    ensures r[|pad| + 10 .. |r| - 5] == Repeat(unit, size + 2)
    ensures r[|r| - 5 ..] == ResetColors() + "\n"
  {
    pad + BlackOnWhite() + Repeat(unit, size + 2) + ResetColors() + "\n"
  }

  /** A border line holds exactly `size + 2` copies of its unit between the
      colour escapes. */
  lemma HorizBorderUnits(size: nat, pad: string, unit: string, i: nat)
    requires i < size + 2
    ensures var r := HorizBorder(size, pad, unit);
            |pad| + 10 + i * |unit| + |unit| <= |r|
            && r[|pad| + 10 + i * |unit| .. |pad| + 10 + i * |unit| + |unit|] == unit
  {
    var r := HorizBorder(size, pad, unit);
    var units := Repeat(unit, size + 2);
    RepeatSlot(unit, size + 2, i);
    assert r[|pad| + 10 .. |r| - 5] == units;
    SliceOfSlice(r, |pad| + 10, |r| - 5, i * |unit|, i * |unit| + |unit|);
  }

  /** A slice of a slice is a slice of the whole. */
  lemma SliceOfSlice(s: string, a: nat, b: nat, c: nat, d: nat)
    requires a <= b <= |s| && c <= d <= b - a
    ensures s[a .. b][c .. d] == s[a + c .. a + d]
  {
    assert forall k :: 0 <= k < d - c ==> s[a .. b][c .. d][k] == s[a + c + k];
  }

  /** The `size` glyphs of the Unicode data line that starts at row `y`. */
  function GlyphRow(m: BitMatrix, y: nat): (g: string)
    requires y < |m|
    ensures |g| == |m|
    ensures forall x :: 0 <= x < |m| ==> g[x] == Glyph(Block(m, x, y).0, Block(m, x, y).1)
  {
    seq(|m|, x requires 0 <= x < |m| => Glyph(Block(m, x, y).0, Block(m, x, y).1))
  }

  /** One Unicode data line: pad, colours, a blank border glyph, the glyphs
      of rows `y` and `y + 1`, a blank border glyph, reset, newline. */
  function UnicodeRow(m: BitMatrix, pad: string, y: nat): (r: string)
    requires y < |m|
    ensures |r| == |pad| + |m| + 17
    ensures r[..|pad|] == pad
  {
    pad + BlackOnWhite() + [WW] + GlyphRow(m, y) + [WW] + ResetColors() + "\n"
  }

  /** The parts of a data line: after the pad, the colour escapes, a blank
      frame glyph, the row's glyphs, a blank frame glyph, then the reset and
      the newline. */
  lemma UnicodeRowFrame(m: BitMatrix, pad: string, y: nat)
    requires y < |m|
    ensures var r := UnicodeRow(m, pad, y);
            && r[|pad| .. |pad| + 10] == BlackOnWhite()
            && r[|pad| + 10] == WW && r[|pad| + 11 + |m|] == WW
            && r[|pad| + 11 .. |pad| + 11 + |m|] == GlyphRow(m, y)
            && r[|r| - 5 ..] == ResetColors() + "\n"
  {
  }

  /** Column `|pad| + 11 + x` of a data line is the glyph of column `x`,
      framed by a blank glyph on each side. */
  lemma UnicodeRowGlyph(m: BitMatrix, pad: string, y: nat, x: nat)
    requires y < |m| && x < |m|
    ensures UnicodeRow(m, pad, y)[|pad| + 11 + x] == Glyph(Block(m, x, y).0, Block(m, x, y).1)
    ensures UnicodeRow(m, pad, y)[|pad| + 10] == WW && UnicodeRow(m, pad, y)[|pad| + 11 + |m|] == WW
  {
    var g := GlyphRow(m, y);
    var r := UnicodeRow(m, pad, y);
    assert r == (pad + BlackOnWhite() + [WW]) + g + ([WW] + ResetColors() + "\n");
    assert |pad + BlackOnWhite() + [WW]| == |pad| + 11;
  }

  /** Number of Unicode data lines: one per pair of rows, rounding up. */
  function DataLines(size: nat): nat {
    (size + 1) / 2
  }

  /** `output_unicode`: a "▀" top border, one data line for each `y` in
      0, 2, 4, ... below `size`, and a "▄" bottom border only when `size` is
      even (for odd sizes the last data line's clear lower halves already
      close the frame). */
  function OutputUnicode(m: BitMatrix, pad: string): (lines: seq<string>)
    ensures |lines| == 1 + DataLines(|m|) + (if |m| % 2 == 0 then 1 else 0)
    ensures lines[0] == HorizBorder(|m|, pad, [BW])
    ensures forall k :: 0 <= k < DataLines(|m|) ==> 2 * k < |m| && lines[1 + k] == UnicodeRow(m, pad, 2 * k)
    ensures |m| % 2 == 0 ==> lines[|lines| - 1] == HorizBorder(|m|, pad, [WB])
  {
    var n := |m|;
    var rows := seq(DataLines(n), k requires 0 <= k < DataLines(n) => UnicodeRow(m, pad, 2 * k));
    [HorizBorder(n, pad, [BW])] + rows + (if n % 2 == 0 then [HorizBorder(n, pad, [WB])] else [])
  }

  /** Every Unicode line starts with the pad and all lines have the same
      width: `size + 2` glyph columns between the same colour escapes. */
  lemma UnicodeLineShape(m: BitMatrix, pad: string, i: nat)
    requires i < |OutputUnicode(m, pad)|
    ensures var line := OutputUnicode(m, pad)[i];
            |line| == |pad| + |m| + 17 && line[..|pad|] == pad
  {
    var lines := OutputUnicode(m, pad);
    if 0 < i <= DataLines(|m|) {
      assert lines[1 + (i - 1)] == UnicodeRow(m, pad, 2 * (i - 1));
    }
  }

  /** The character at line `i`, column `j`, or a blank outside the text. */
  function CharAt(lines: seq<string>, i: nat, j: nat): char {
    if i < |lines| && j < |lines[i]| then lines[i][j] else ' '
  }

  /** Reads an `n` by `n` matrix back from Unicode-mode output rendered
      with a pad of `padLen` characters: bit (x, y) is the upper half of
      glyph x on data line y / 2 for even y, its lower half for odd y. */
  function DecodeUnicode(lines: seq<string>, n: nat, padLen: nat): seq<seq<bool>> {
    seq(n, y requires 0 <= y => seq(n, x requires 0 <= x => DecodeUnicodeBit(lines, padLen, x, y)))
  }

  function DecodeUnicodeBit(lines: seq<string>, padLen: nat, x: nat, y: nat): bool {
    var c := CharAt(lines, 1 + y / 2, padLen + 11 + x);
    if y % 2 == 0 then InkTop(c) else InkBottom(c)
  }

  lemma UnicodeBitRoundTrip(m: BitMatrix, pad: string, x: nat, y: nat)
    requires x < |m| && y < |m|
    ensures DecodeUnicodeBit(OutputUnicode(m, pad), |pad|, x, y) == m[y][x]
  {
    var lines := OutputUnicode(m, pad);
    var k := y / 2;
    assert lines[1 + k] == UnicodeRow(m, pad, 2 * k);
    UnicodeRowGlyph(m, pad, 2 * k, x);
  }

  /** Unicode mode loses nothing: every bit can be read back from its glyph. */
  lemma UnicodeRoundTrip(m: BitMatrix, pad: string)
    ensures DecodeUnicode(OutputUnicode(m, pad), |m|, |pad|) == m
  {
    var lines := OutputUnicode(m, pad);
    var d := DecodeUnicode(lines, |m|, |pad|);
    forall y | 0 <= y < |m|
      ensures d[y] == m[y]
    {
      forall x | 0 <= x < |m|
        ensures d[y][x] == m[y][x]
      {
        UnicodeBitRoundTrip(m, pad, x, y);
      }
    }
  }

  /** For odd sizes the last data line holds only glyphs with a clear lower
      half (" " or "▀"), which is why no bottom border is added. */
  lemma OddLastRowClosesFrame(m: BitMatrix, pad: string, x: nat)
    requires |m| % 2 == 1 && x < |m|
    ensures var lines := OutputUnicode(m, pad);
            var c := CharAt(lines, |lines| - 1, |pad| + 11 + x);
            |lines| == 1 + DataLines(|m|) && (c == WW || c == BW)
  {
    var lines := OutputUnicode(m, pad);
    var k := DataLines(|m|) - 1;
    assert lines[|lines| - 1] == UnicodeRow(m, pad, 2 * k);
    assert 2 * k + 1 == |m|;
    UnicodeRowGlyph(m, pad, 2 * k, x);
  }

  /** One ASCII cell: black for a set bit, white for a clear one. */
  function Cell(bit: bool): (s: string)
    ensures |s| == 11
    ensures (s == Black) == bit && (s == White) == !bit
  {
    if bit then Black else White
  }

  /** The `size + 2` blocks of ASCII row `y`: a white border block, one
      cell per bit, a white border block. */
  function RowBlocks(m: BitMatrix, y: nat): (bs: seq<string>)
    requires y < |m|
    ensures |bs| == |m| + 2
    ensures forall b :: 0 <= b < |bs| ==> |bs[b]| == 11
    ensures bs[0] == White && bs[|m| + 1] == White
    ensures forall x :: 0 <= x < |m| ==> bs[x + 1] == Cell(m[y][x])
  {
    [White] + seq(|m|, x requires 0 <= x < |m| => Cell(m[y][x])) + [White]
  }

  /** One ASCII data line: the pad, the row's blocks, a newline. */
  function AsciiRow(m: BitMatrix, pad: string, y: nat): (r: string)
    requires y < |m|
    ensures |r| == |pad| + 11 * (|m| + 2) + 1
    ensures r[..|pad|] == pad
    ensures r[|r| - 1] == '\n'
  {
    ConcatLength(RowBlocks(m, y), 11);
    pad + Concat(RowBlocks(m, y)) + "\n"
  }

  /** Block `b` of a data line sits at column `|pad| + 11 * b`. */
  lemma AsciiRowBlock(m: BitMatrix, pad: string, y: nat, b: nat)
    requires y < |m| && b < |m| + 2
    ensures var r := AsciiRow(m, pad, y);
            |pad| + 11 * b + 11 <= |r| && r[|pad| + 11 * b .. |pad| + 11 * b + 11] == RowBlocks(m, y)[b]
  {
    var bs := RowBlocks(m, y);
    assert AsciiRow(m, pad, y) == pad + Concat(bs) + "\n";
    PaddedBlock(pad, bs, b);
  }

  /** Block `b` of a padded line of 11-character blocks sits at column
      `|pad| + 11 * b`. */
  lemma PaddedBlock(pad: string, bs: seq<string>, b: nat)
    requires forall i :: 0 <= i < |bs| ==> |bs[i]| == 11
    requires b < |bs|
    ensures |pad| + 11 * b + 11 <= |pad + Concat(bs) + "\n"|
    ensures (pad + Concat(bs) + "\n")[|pad| + 11 * b .. |pad| + 11 * b + 11] == bs[b]
  {
    ConcatSlice(bs, 11, b);
    var c := Concat(bs);
    assert (pad + c + "\n")[|pad| + 11 * b .. |pad| + 11 * b + 11] == c[11 * b .. 11 * b + 11];
  }

  /** `output_ascii`: a border line of white blocks, one line per row, and
      another border line. */
  function OutputAscii(m: BitMatrix, pad: string): (lines: seq<string>)
    ensures |lines| == |m| + 2
    ensures lines[0] == lines[|lines| - 1] == HorizBorder(|m|, pad, White)
    ensures forall y :: 0 <= y < |m| ==> lines[1 + y] == AsciiRow(m, pad, y)
  {
    var n := |m|;
    [HorizBorder(n, pad, White)]
      + seq(n, y requires 0 <= y < n => AsciiRow(m, pad, y))
      + [HorizBorder(n, pad, White)]
  }

  /** Every ASCII line starts with the pad. */
  lemma AsciiLinePad(m: BitMatrix, pad: string, i: nat)
    requires i < |OutputAscii(m, pad)|
    ensures OutputAscii(m, pad)[i][..|pad|] == pad
  {
    var lines := OutputAscii(m, pad);
    if 0 < i < |lines| - 1 {
      assert lines[1 + (i - 1)] == AsciiRow(m, pad, i - 1);
    }
  }

  /** The text at line `i`, columns `j` up to `j + w`, or empty outside the text. */
  function SliceAt(lines: seq<string>, i: nat, j: nat, w: nat): string {
    if i < |lines| && j + w <= |lines[i]| then lines[i][j .. j + w] else ""
  }

  /** Reads an `n` by `n` matrix back from ASCII-mode output rendered with a
      pad of `padLen` characters: a bit is set exactly when its cell is black. */
  function DecodeAscii(lines: seq<string>, n: nat, padLen: nat): seq<seq<bool>> {
    seq(n, y requires 0 <= y => seq(n, x requires 0 <= x => SliceAt(lines, 1 + y, padLen + 11 * (x + 1), 11) == Black))
  }

  lemma AsciiBitRoundTrip(m: BitMatrix, pad: string, x: nat, y: nat)
    requires x < |m| && y < |m|
    ensures (SliceAt(OutputAscii(m, pad), 1 + y, |pad| + 11 * (x + 1), 11) == Black) == m[y][x]
  {
    var lines := OutputAscii(m, pad);
    assert lines[1 + y] == AsciiRow(m, pad, y);
    AsciiRowBlock(m, pad, y, x + 1);
    assert SliceAt(lines, 1 + y, |pad| + 11 * (x + 1), 11) == Cell(m[y][x]);
  }

  /** ASCII mode loses nothing either. */
  lemma AsciiRoundTrip(m: BitMatrix, pad: string)
    ensures DecodeAscii(OutputAscii(m, pad), |m|, |pad|) == m
  {
    var lines := OutputAscii(m, pad);
    var d := DecodeAscii(lines, |m|, |pad|);
    forall y | 0 <= y < |m|
      ensures d[y] == m[y]
    {
      forall x | 0 <= x < |m|
        ensures d[y][x] == m[y][x]
      {
        AsciiBitRoundTrip(m, pad, x, y);
      }
    }
  }

  /** The border lines of ASCII mode hold `size + 2` white blocks. */
  lemma AsciiBorderBlocks(m: BitMatrix, pad: string, b: nat)
    requires b < |m| + 2
    ensures var lines := OutputAscii(m, pad);
            SliceAt(lines, 0, |pad| + 10 + 11 * b, 11) == White
            && SliceAt(lines, |lines| - 1, |pad| + 10 + 11 * b, 11) == White
  {
    HorizBorderUnits(|m|, pad, White, b);
    assert b * |White| == 11 * b;
  }
}

=== FILE: results.dfy ===
/** Optional values and fallible results, in the shape the Rust code uses
    (`Option<T>`, `Result<T, E>`), so that the driver's chains of
    `and_then` / `map_err` read as ordinary sequencing with `:-`. */
module Results {

  datatype Option<+T> = None | Some(value: T) {

    predicate IsFailure() {
      None?
    }

    function PropagateFailure<U>(): Option<U>
      requires None?
    {
      None
    }

    function Extract(): T
      requires Some?
    {
      value
    }

    /** The contained value, or `default` when there is none (`unwrap_or`). */
    function UnwrapOr(default: T): T {
      match this
      case Some(v) => v
      case None => default
    }

    /** Rust's `ok_or`: an absent value becomes the given error. */
    function ToResult<E>(error: E): Result<T, E> {
      match this
      case Some(v) => Ok(v)
      case None => Err(error)
    }
  }

  datatype Result<+T, +E> = Ok(value: T) | Err(error: E) {

    predicate IsFailure() {
      Err?
    }

    function PropagateFailure<U>(): Result<U, E>
      requires Err?
    {
      Err(error)
    }

    function Extract(): T
      requires Ok?
    {
      value
    }

    /** Rust's `map_err`: keeps a success, rewraps an error. */
    function MapErr<F>(f: E -> F): Result<T, F> {
      match this
      case Ok(v) => Ok(v)
      case Err(e) => Err(f(e))
    }

    /** Rust's `.ok()`: forgets the error. */
    function ToOption(): Option<T> {
      match this
      case Ok(v) => Some(v)
      case Err(_) => None
    }
  }
}

=== FILE: tozny_api.dfy ===
/** The boundary of the remote authentication service (the `tozny_auth`
    crate): the values it hands back. The service itself — issuing a
    challenge, pushing, answering status checks, verifying signatures — is
    not modelled; the session driver receives its answers as inputs. */
module ToznyApi {

  /** Why the service or the signature check refused (`question::QuestionError`).
      Only a bad signature is told apart; every other kind is opaque. */
  datatype QuestionError = InvalidSignature | OtherQuestionError(kind: string)

  /** A login challenge (`user::LoginChallenge`). */
  datatype Challenge = Challenge(
    sessionId: string,
    presence: string,
    qrUrl: string,
    mobileUrl: string)

  /** One answer of `check_session_status`: the signed response once the
      user has answered, not ready yet, or an error. */
  datatype StatusResponse = Ready(signedData: string) | NotReady | StatusError(error: QuestionError)

  /** The verified payload of a signed response (`login::Login`). */
  datatype Login = Login(userId: string, userDisplay: string)
}

=== FILE: toznyauth_pam.dfy ===
/** `src/toznyauth_pam.rs`: the PAM entry points and the session driver.

    One attempt issues a login challenge, delivers it (a push to the device
    remembered in the presence cache, or a QR code / URL shown through the
    PAM conversation), polls for the signed answer at most `PollTtl + 1`
    times one second apart, verifies it and checks the login against the
    authorized users. The remote service, the PAM conversation, the QR
    encoder and the filesystem are inputs; the driver is a pure function of
    them that returns its outcome, the filesystem afterwards, and the
    observable calls it made, in order. */
module ToznyAuthPam {
  import opened Results
  import opened FileSystem
  import opened ToznyApi
  import opened Config
  import opened Presence
  import opened QrTerm

  /** PAM result codes and message styles, with their Linux-PAM values. */
  const PamSuccess: int := 0
  const PamServiceErr: int := 3
  const PamPermDenied: int := 6
  const PamAuthErr: int := 7
  const PamAuthinfoUnavail: int := 9

  const PamPromptEchoOff: int := 1
  const PamErrorMsg: int := 3
  const PamTextInfo: int := 4

  /** The `PAM_SILENT` bit of the flags word. */
  const PamSilent: bv32 := 0x8000

  /** Status checks after the first one (the source's hard-wired ttl). */
  const PollTtl: nat := 100

  /** Every way an attempt can fail (`AuthError`). */
  datatype AuthError =
    | ConfigFailed(error: ConfigError)
    | NotAuthorized
    | PamResult(code: int)
    | TimedOut
    | QuestionFailed(qerror: QuestionError)

  /** What one conversation call did: delivered, or failed with a PAM code. */
  datatype SendOutcome = Sent | SendFailed(code: int)

  /** The PAM conversation: style and text in, outcome out. */
  type Conv = (int, string) -> SendOutcome

  /** The remote service's answers for one attempt: the challenge (or the
      error issuing it), whether a push of a session to a presence token
      succeeds, the answer to the k-th status check (counting from 0), and
      the outcome of unpacking and verifying a signed response. */
  datatype Api = Api(
    challenge: Result<Challenge, QuestionError>,
    push: (string, string) -> bool,
    status: nat -> StatusResponse,
    unpack: string -> Result<Login, QuestionError>)

  /** The observable calls of an attempt. `Polled` stands for the whole
      polling loop: how many status checks and how many one-second sleeps. */
  datatype Effect =
    | ChallengeRequested
    | CacheRead
    | PushAttempt(sessionId: string, token: string)
    | CacheWrite(token: string)
    | Message(style: int, text: string)
    | Polled(checks: nat, sleeps: nat)
    | ErrorShown(style: int, error: AuthError)

  predicate TouchesCache(e: Effect) {
    e.CacheRead? || e.PushAttempt? || e.CacheWrite?
  }

  /** `error_code`: the PAM code an error is reported with. */
  function ErrorCode(e: AuthError): (code: int)
    ensures e.ConfigFailed? || e.TimedOut? ==> code == PamAuthinfoUnavail
    ensures e.NotAuthorized? ==> code == PamPermDenied
    ensures e.PamResult? ==> code == e.code
    ensures e == QuestionFailed(InvalidSignature) ==> code == PamAuthErr
    ensures e.QuestionFailed? && e.qerror != InvalidSignature ==> code == PamServiceErr
  {
    match e
    case ConfigFailed(_) => PamAuthinfoUnavail
    case NotAuthorized => PamPermDenied
    case PamResult(code) => code
    case TimedOut => PamAuthinfoUnavail
    case QuestionFailed(q) =>
      match q
      case InvalidSignature => PamAuthErr
      case _ => PamServiceErr
  }

  /** Outside pass-through PAM codes, every error maps to one of the four
      failure codes and never to success. */
  lemma ErrorCodeIsFailure(e: AuthError)
    requires !e.PamResult?
    ensures ErrorCode(e) in {PamAuthinfoUnavail, PamPermDenied, PamAuthErr, PamServiceErr}
    ensures ErrorCode(e) != PamSuccess
  {
  }

  const PromptSuffix: string := "\n\nPress Enter at any time:"

  /** The conversation message `interact` sends for a body of text: with
      `prompt`, the body plus an instruction to press Enter, as a
      masked prompt; otherwise the body alone, as information. */
  function PromptedMessage(config: Config, body: string): (m: (int, string))
    ensures |m.1| >= |body| && m.1[..|body|] == body
    ensures config.prompt ==> m.0 == PamPromptEchoOff && m.1[|body|..] == PromptSuffix
    ensures !config.prompt ==> m.0 == PamTextInfo && m.1 == body
  {
    if config.prompt then (PamPromptEchoOff, body + PromptSuffix) else (PamTextInfo, body)
  }

  /** `interact`: one conversation call; its failure code becomes `PamResult`. */
  function Interact(config: Config, conv: Conv, body: string): (r: Result<(), AuthError>)
    ensures var m := PromptedMessage(config, body);
            && (r.Ok? <==> conv(m.0, m.1).Sent?)
            && (r.Err? ==> r.error == PamResult(conv(m.0, m.1).code))
  {
    var m := PromptedMessage(config, body);
    match conv(m.0, m.1)
    case Sent => Ok(())
    case SendFailed(code) => Err(PamResult(code))
  }

  const PushText: string := "Check your phone for a push notification from Tozny."
  const QrUrlIntro: string := "Open this URL, and scan the QR code with the Tozny app:\n"
  const ScanIntro: string := "\nScan the code above with the Tozny app. Or if the code does not display correctly, open this URL:\n"
  const MobileIntro: string := "\n\nIf you are on your mobile device, use this URL to invoke the Tozny app:\n"

  /** `show_inline_qr`: a newline, the Unicode rendering (8-space pad) of
      the QR code of the mobile URL, then the QR URL as a fallback. */
  function InlineQrText(ch: Challenge, qrEncode: string -> BitMatrix): (t: string)
    ensures var qr := Concat(OutputUnicode(qrEncode(ch.mobileUrl), InlinePad));
            && |t| >= 1 + |qr| + |ch.qrUrl|
            && t[..1 + |qr|] == "\n" + qr
            && t[|t| - |ch.qrUrl| ..] == ch.qrUrl
            && t[1 + |qr| .. |t| - |ch.qrUrl|] == ScanIntro
  {
    "\n" + Concat(OutputUnicode(qrEncode(ch.mobileUrl), InlinePad)) + ScanIntro + ch.qrUrl
  }

  /** `show_qr_url`: the QR URL alone. */
  function QrUrlText(ch: Challenge): (t: string)
    ensures |t| == |QrUrlIntro| + |ch.qrUrl|
    ensures t[..|QrUrlIntro|] == QrUrlIntro && t[|QrUrlIntro|..] == ch.qrUrl
  {
    QrUrlIntro + ch.qrUrl
  }

  /** The body `show_qr` hands to `interact`: the inline QR code when `qr`
      is set, else the URL text; then the mobile URL when `mobile_url` is. */
  function QrText(config: Config, ch: Challenge, qrEncode: string -> BitMatrix): (t: string)
    ensures var head := if config.qr then InlineQrText(ch, qrEncode) else QrUrlText(ch);
            && |t| >= |head| && t[..|head|] == head
            && (config.mobileUrl ==> t[|head|..] == MobileIntro + ch.mobileUrl)
            && (!config.mobileUrl ==> t == head)
  {
    var head := if config.qr then InlineQrText(ch, qrEncode) else QrUrlText(ch);
    head + (if config.mobileUrl then MobileIntro + ch.mobileUrl else "")
  }

  /** The result of the polling loop, with its number of status checks and
      sleeps. */
  datatype PollRun = PollRun(result: Result<string, AuthError>, checks: nat, sleeps: nat)

  /** `poll_session_status`: check the status (the `first`-th check of the
      session); a ready answer is returned, an error ends the loop, and
      "not ready" sleeps one second and tries again while ttl remains,
      else gives up with `TimedOut`. */
  function PollSessionStatus(status: nat -> StatusResponse, first: nat, ttl: nat): (r: PollRun)
    decreases ttl
    ensures 1 <= r.checks <= ttl + 1 && r.sleeps == r.checks - 1
    ensures forall k :: first <= k < first + r.checks - 1 ==> status(k) == NotReady
    ensures var last := status(first + r.checks - 1);
            && (last.Ready? <==> r.result.Ok?)
            && (last.Ready? ==> r.result.value == last.signedData)
            && (last.StatusError? ==> r.result == Err(QuestionFailed(last.error)))
            && (last.NotReady? <==> r.result == Err(TimedOut))
            && (last.NotReady? ==> r.checks == ttl + 1)
  {
    match status(first)
    case Ready(signed) => PollRun(Ok(signed), 1, 0)
    case StatusError(e) => PollRun(Err(QuestionFailed(e)), 1, 0)
    case NotReady =>
      if ttl > 0 then
        var rest := PollSessionStatus(status, first + 1, ttl - 1);
        PollRun(rest.result, rest.checks + 1, rest.sleeps + 1)
      else
        PollRun(Err(TimedOut), 1, 0)
  }

  /** The status checks `first` to `first + ttl` all answer "not ready". */
  predicate NeverReadyWithin(status: nat -> StatusResponse, first: nat, ttl: nat) {
    forall k :: first <= k <= first + ttl ==> status(k) == NotReady
  }

  /** A session that never becomes ready times out after exactly
      `ttl + 1` checks and `ttl` sleeps. */
  lemma {:induction false} PollTimesOut(status: nat -> StatusResponse, first: nat, ttl: nat)
    requires NeverReadyWithin(status, first, ttl)
    decreases ttl
    ensures PollSessionStatus(status, first, ttl) == PollRun(Err(TimedOut), ttl + 1, ttl)
  {
    if ttl > 0 {
      PollTimesOut(status, first + 1, ttl - 1);
    }
  }

  /** The first ready answer among the allowed checks is the one returned. */
  lemma {:induction false} PollFindsFirstReady(status: nat -> StatusResponse, first: nat, ttl: nat, k: nat)
    requires k <= ttl && status(first + k).Ready?
    requires forall j :: first <= j < first + k ==> status(j) == NotReady
    decreases k
    ensures PollSessionStatus(status, first, ttl)
            == PollRun(Ok(status(first + k).signedData), k + 1, k)
  {
    if k > 0 {
      PollFindsFirstReady(status, first + 1, ttl - 1, k - 1);
    }
  }

  /** `push_notification` followed by `save_presence`, as `authenticate`
      runs them when presence is on: read the cached token, push to it if
      there is one, then cache the new challenge's token whatever the push
      did. Yields whether a push succeeded, the filesystem afterwards and
      the calls made. */
  function PushAndRefresh(api: Api, ids: OsIds, user: string, home: Path, ch: Challenge, fs: Fs)
    : (r: (bool, Fs, seq<Effect>))
    ensures var cached := GetPresence(fs, home).0;
            && (r.0 <==> cached.Some? && api.push(ch.sessionId, cached.value))
            && r.1 == SavePresence(GetIdAsWritten, GetPresence(fs, home).1, ids, user, home, ch.presence)
            && r.2 == [CacheRead]
                      + (if cached.Some? then [PushAttempt(ch.sessionId, cached.value)] else [])
                      + [CacheWrite(ch.presence)]
  {
    var (cached, fs1) := GetPresence(fs, home);
    var pushed := cached.Some? && api.push(ch.sessionId, cached.value);
    var pushEffects := if cached.Some? then [PushAttempt(ch.sessionId, cached.value)] else [];
    var fs2 := SavePresence(GetIdAsWritten, fs1, ids, user, home, ch.presence);
    (pushed, fs2, [CacheRead] + pushEffects + [CacheWrite(ch.presence)])
  }

  /** The outcome of one attempt: the login or the error, the filesystem
      afterwards, and the calls made in order. */
  datatype AuthRun = AuthRun(result: Result<Login, AuthError>, fs: Fs, effects: seq<Effect>)

  /** The delivery step of `authenticate`: whether a push went out, the
      filesystem afterwards, and the calls made. */
  function Delivery(config: Config, user: string, api: Api, ids: OsIds, ch: Challenge, fs: Fs)
    : (r: (bool, Fs, seq<Effect>))
    ensures !config.presence ==> r == (false, fs, [])
  {
    if config.presence then PushAndRefresh(api, ids, user, config.homeDir, ch, fs)
    else (false, fs, [])
  }

  /** The body of the message shown after delivery. */
  function DeliveryText(config: Config, didPush: bool, ch: Challenge, qrEncode: string -> BitMatrix): (t: string)
    ensures didPush ==> t == PushText
    ensures !didPush ==> t == QrText(config, ch, qrEncode)
  {
    if didPush then PushText else QrText(config, ch, qrEncode)
  }

  /** `authenticate`: challenge, delivery, message, polling, unpacking and
      the authorization check, each step only when all before it succeeded. */
  function Authenticate(config: Config, user: string, conv: Conv, api: Api,
                        fs: Fs, ids: OsIds, qrEncode: string -> BitMatrix): (r: AuthRun)
    ensures api.challenge.Err? ==>
              r == AuthRun(Err(QuestionFailed(api.challenge.error)), fs, [ChallengeRequested])
    ensures |r.effects| >= 1 && r.effects[0] == ChallengeRequested
    ensures r.result.Ok? ==> IsAuthorized(config, r.result.value)
  {
    match api.challenge
    case Err(e) => AuthRun(Err(QuestionFailed(e)), fs, [ChallengeRequested])
    case Ok(ch) =>
      var (didPush, fs1, delivered) := Delivery(config, user, api, ids, ch, fs);
      var text := DeliveryText(config, didPush, ch, qrEncode);
      var m := PromptedMessage(config, text);
      var shown := [ChallengeRequested] + delivered + [Message(m.0, m.1)];
      match Interact(config, conv, text)
      case Err(e) => AuthRun(Err(e), fs1, shown)
      case Ok(_) =>
        var poll := PollSessionStatus(api.status, 0, PollTtl);
        var polled := shown + [Polled(poll.checks, poll.sleeps)];
        match poll.result
        case Err(e) => AuthRun(Err(e), fs1, polled)
        case Ok(signed) =>
          match api.unpack(signed)
          case Err(q) => AuthRun(Err(QuestionFailed(q)), fs1, polled)
          case Ok(login) =>
            if IsAuthorized(config, login) then AuthRun(Ok(login), fs1, polled)
            else AuthRun(Err(NotAuthorized), fs1, polled)
  }

  /** With presence off, `authenticate` neither reads nor writes the cache
      nor pushes, leaves the filesystem alone and always shows the QR code
      or URL. */
  lemma PresenceOffIsVisual(config: Config, user: string, conv: Conv, api: Api,
                            fs: Fs, ids: OsIds, qrEncode: string -> BitMatrix)
    requires !config.presence && api.challenge.Ok?
    ensures var r := Authenticate(config, user, conv, api, fs, ids, qrEncode);
            var m := PromptedMessage(config, QrText(config, api.challenge.value, qrEncode));
            && r.fs == fs
            && (forall i :: 0 <= i < |r.effects| ==> !TouchesCache(r.effects[i]))
            && r.effects[1] == Message(m.0, m.1)
  {
    var r := Authenticate(config, user, conv, api, fs, ids, qrEncode);
    var ch := api.challenge.value;
    assert Delivery(config, user, api, ids, ch, fs) == (false, fs, []);
    var m := PromptedMessage(config, QrText(config, ch, qrEncode));
    var shown := [ChallengeRequested, Message(m.0, m.1)];
    var poll := PollSessionStatus(api.status, 0, PollTtl);
    assert r.effects == shown || r.effects == shown + [Polled(poll.checks, poll.sleeps)];
  }

  /** Every attempt with a challenge starts by requesting it, then makes
      the delivery calls, then sends exactly one message, and keeps the
      filesystem the delivery left. */
  lemma AuthenticateShows(config: Config, user: string, conv: Conv, api: Api,
                          fs: Fs, ids: OsIds, qrEncode: string -> BitMatrix)
    requires api.challenge.Ok?
    ensures var r := Authenticate(config, user, conv, api, fs, ids, qrEncode);
            var ch := api.challenge.value;
            var d := Delivery(config, user, api, ids, ch, fs);
            var m := PromptedMessage(config, DeliveryText(config, d.0, ch, qrEncode));
            var shown := [ChallengeRequested] + d.2 + [Message(m.0, m.1)];
            var poll := PollSessionStatus(api.status, 0, PollTtl);
            && r.fs == d.1
            && |r.effects| >= |d.2| + 2
            && r.effects[..|d.2| + 2] == shown
            && (r.effects == shown || r.effects == shown + [Polled(poll.checks, poll.sleeps)])
  {
    var r := Authenticate(config, user, conv, api, fs, ids, qrEncode);
    var ch := api.challenge.value;
    var d := Delivery(config, user, api, ids, ch, fs);
    var m := PromptedMessage(config, DeliveryText(config, d.0, ch, qrEncode));
    var shown := [ChallengeRequested] + d.2 + [Message(m.0, m.1)];
    assert r.effects == shown || r.effects == shown + [Polled(PollSessionStatus(api.status, 0, PollTtl).checks,
                                                              PollSessionStatus(api.status, 0, PollTtl).sleeps)];
    assert r.effects[..|shown|] == shown;
  }

  /** With presence on, the cached token is read first, a push goes to it
      when there is one, and the new challenge's token is cached next
      whatever the push did; the push message is shown exactly when a
      cached token existed and the push succeeded. */
  lemma PresenceOnPushes(config: Config, user: string, conv: Conv, api: Api,
                         fs: Fs, ids: OsIds, qrEncode: string -> BitMatrix)
    requires config.presence && api.challenge.Ok?
    ensures var r := Authenticate(config, user, conv, api, fs, ids, qrEncode);
            var ch := api.challenge.value;
            var (cached, fs1) := GetPresence(fs, config.homeDir);
            var didPush := cached.Some? && api.push(ch.sessionId, cached.value);
            var m := PromptedMessage(config, if didPush then PushText else QrText(config, ch, qrEncode));
            && r.fs == SavePresence(GetIdAsWritten, fs1, ids, user, config.homeDir, ch.presence)
            && r.effects[..3 + (if cached.Some? then 1 else 0)]
               == [ChallengeRequested, CacheRead]
                  + (if cached.Some? then [PushAttempt(ch.sessionId, cached.value)] else [])
                  + [CacheWrite(ch.presence)]
            && r.effects[3 + (if cached.Some? then 1 else 0)] == Message(m.0, m.1)
  {
    var r := Authenticate(config, user, conv, api, fs, ids, qrEncode);
    var ch := api.challenge.value;
    var d := Delivery(config, user, api, ids, ch, fs);
    assert d == PushAndRefresh(api, ids, user, config.homeDir, ch, fs);
    var m := PromptedMessage(config, DeliveryText(config, d.0, ch, qrEncode));
    AuthenticateShows(config, user, conv, api, fs, ids, qrEncode);
    var prefix := [ChallengeRequested] + d.2 + [Message(m.0, m.1)];
    assert r.effects[..|d.2| + 2] == prefix;
    assert r.effects[..|d.2| + 1] == prefix[..|d.2| + 1] == [ChallengeRequested] + d.2;
    assert r.effects[|d.2| + 1] == prefix[|d.2| + 1] == Message(m.0, m.1);
  }

  /** `authenticate` succeeds exactly when every step does: challenge,
      message, polling, unpacking, and an authorized login. */
  lemma AuthenticateOutcome(config: Config, user: string, conv: Conv, api: Api,
                            fs: Fs, ids: OsIds, qrEncode: string -> BitMatrix)
    ensures var r := Authenticate(config, user, conv, api, fs, ids, qrEncode);
            && (r.result.Ok? <==> StepsSucceed(config, user, conv, api, fs, ids, qrEncode)
                                  && IsAuthorized(config, Unpacked(config, user, conv, api, fs, ids, qrEncode)))
            && (r.result == Err(NotAuthorized) <==>
                  StepsSucceed(config, user, conv, api, fs, ids, qrEncode)
                  && !IsAuthorized(config, Unpacked(config, user, conv, api, fs, ids, qrEncode)))
            && (r.result.Ok? ==> r.result.value == Unpacked(config, user, conv, api, fs, ids, qrEncode))
  {
  }

  /** Every step of `authenticate` before the authorization check succeeds. */
  predicate StepsSucceed(config: Config, user: string, conv: Conv, api: Api,
                         fs: Fs, ids: OsIds, qrEncode: string -> BitMatrix) {
    && api.challenge.Ok?
    && var ch := api.challenge.value;
       var didPush := Delivery(config, user, api, ids, ch, fs).0;
       && Interact(config, conv, DeliveryText(config, didPush, ch, qrEncode)).Ok?
       && PollSessionStatus(api.status, 0, PollTtl).result.Ok?
       && api.unpack(PollSessionStatus(api.status, 0, PollTtl).result.value).Ok?
  }

  /** The login unpacked when every step succeeds. */
  function Unpacked(config: Config, user: string, conv: Conv, api: Api,
                    fs: Fs, ids: OsIds, qrEncode: string -> BitMatrix): Login
    requires StepsSucceed(config, user, conv, api, fs, ids, qrEncode)
  {
    api.unpack(PollSessionStatus(api.status, 0, PollTtl).result.value).value
  }

  /** Everything the PAM entry point depends on besides the remote service:
      the handle's answers for the user name and the conversation, what
      `Config::build` consults, the OS identity lookups and the QR encoder. */
  datatype Host = Host(
    user: Result<string, int>,
    conv: Result<Conv, int>,
    configEnv: ConfigEnv,
    ids: OsIds,
    qrEncode: string -> BitMatrix)

  /** What `pam_sm_authenticate` returns, and what it did. */
  datatype PamRun = PamRun(code: int, fs: Fs, effects: seq<Effect>)

  predicate Silent(flags: bv32) {
    flags & PamSilent != 0
  }

  /** `show_info`: informational text unless silent; never fails. */
  function ShowInfo(flags: bv32, info: string): (effects: seq<Effect>)
    ensures Silent(flags) ==> effects == []
    ensures !Silent(flags) ==> effects == [Message(PamTextInfo, info)]
  {
    if Silent(flags) then [] else [Message(PamTextInfo, info)]
  }

  /** The decision chain of `pam_sm_authenticate`: user name, configuration,
      conversation, `authenticate`, then `Conclude`. Any failure is shown
      (unless silent, and only when a conversation is available) and
      mapped by `error_code`. */
  function PamSmAuthenticate(host: Host, flags: bv32, args: seq<string>, api: Api): (r: PamRun)
    ensures host.user.Err? ==> r.code == host.user.error
    ensures host.user.Ok? && Build(host.user.value, args, host.configEnv).Err? ==>
              r.code == PamAuthinfoUnavail
    ensures host.user.Err? ==>
              r.effects == (if !Silent(flags) && host.conv.Ok? then [ErrorShown(PamErrorMsg, PamResult(host.user.error))] else [])
    ensures host.user.Ok? && Build(host.user.value, args, host.configEnv).Err? ==>
              r.effects == (if !Silent(flags) && host.conv.Ok?
                            then [ErrorShown(PamErrorMsg, ConfigFailed(Build(host.user.value, args, host.configEnv).error))]
                            else [])
    ensures host.user.Ok? && Build(host.user.value, args, host.configEnv).Ok? && host.conv.Err? ==>
              r.code == host.conv.error && r.effects == []
    ensures host.user.Ok? && Build(host.user.value, args, host.configEnv).Ok? && host.conv.Ok? ==>
              r == Conclude(host, flags,
                            Authenticate(Build(host.user.value, args, host.configEnv).value, host.user.value,
                                         host.conv.value, api, host.configEnv.fs, host.ids, host.qrEncode))
    ensures !(host.user.Ok? && Build(host.user.value, args, host.configEnv).Ok? && host.conv.Ok?) ==>
              r.fs == host.configEnv.fs && |r.effects| <= 1
  {
    var fs := host.configEnv.fs;
    match host.user
    case Err(code) => Failed(host, flags, PamResult(code), fs, [])
    case Ok(user) =>
      match Build(user, args, host.configEnv)
      case Err(ce) => Failed(host, flags, ConfigFailed(ce), fs, [])
      case Ok(config) =>
        match host.conv
        case Err(code) => Failed(host, flags, PamResult(code), fs, [])
        case Ok(conv) => Conclude(host, flags, Authenticate(config, user, conv, api, fs, host.ids, host.qrEncode))
  }

  /** The end of `pam_sm_authenticate` once an attempt ran: a login is
      greeted (unless silent) and granted; an error goes to `Failed`. The
      attempt's calls come first and its filesystem is kept. */
  function Conclude(host: Host, flags: bv32, a: AuthRun): (r: PamRun)
    ensures |r.effects| >= |a.effects| && r.effects[..|a.effects|] == a.effects
    ensures a.result.Ok? ==> r.code == PamSuccess
    ensures a.result.Ok? ==> r.effects[|a.effects|..] == ShowInfo(flags, "Authenticated as " + a.result.value.userDisplay)
    ensures a.result.Err? ==> r.code == ErrorCode(a.result.error)
    ensures a.result.Err? ==> |r.effects| <= |a.effects| + 1
    ensures a.result.Err? ==> (|r.effects| == |a.effects| + 1 <==> !Silent(flags) && host.conv.Ok?)
    ensures a.result.Err? && |r.effects| > |a.effects| ==> r.effects[|a.effects|] == ErrorShown(PamErrorMsg, a.result.error)
    ensures r.fs == a.fs
  {
    match a.result
    case Ok(login) =>
      PamRun(PamSuccess, a.fs, a.effects + ShowInfo(flags, "Authenticated as " + login.userDisplay))
    case Err(e) => Failed(host, flags, e, a.fs, a.effects)
  }

  /** A failed attempt under PAM_SILENT, or without a conversation, adds
      no message to the attempt's calls. */
  lemma QuietFailureShowsNothing(host: Host, flags: bv32, a: AuthRun)
    requires a.result.Err? && (Silent(flags) || host.conv.Err?)
    ensures Conclude(host, flags, a).effects == a.effects
  {
  }

  /** The error path of `pam_sm_authenticate`: `show_err` unless silent
      (it needs the conversation, fetched afresh), then `error_code`. */
  function Failed(host: Host, flags: bv32, e: AuthError, fs: Fs, effects: seq<Effect>): (r: PamRun)
    ensures r.code == ErrorCode(e) && r.fs == fs
    ensures |r.effects| >= |effects| && r.effects[..|effects|] == effects
    ensures |r.effects| == |effects| + 1 <==> !Silent(flags) && host.conv.Ok?
    ensures |r.effects| > |effects| ==> |r.effects| == |effects| + 1 && r.effects[|effects|] == ErrorShown(PamErrorMsg, e)
  {
    var shown := if !Silent(flags) && host.conv.Ok? then [ErrorShown(PamErrorMsg, e)] else [];
    PamRun(ErrorCode(e), fs, effects + shown)
  }

  /** `pam_sm_setcred`: always succeeds, whatever the flags and arguments. */
  function PamSmSetcred(flags: bv32, args: seq<string>): (code: int)
    ensures code == PamSuccess
  {
    PamSuccess
  }

  /** An attempt whose message went out and whose polling ended with an
      error fails with that error. */
  lemma PollErrorEndsAttempt(config: Config, user: string, conv: Conv, api: Api,
                             fs: Fs, ids: OsIds, qrEncode: string -> BitMatrix)
    requires api.challenge.Ok?
    requires var ch := api.challenge.value;
             var didPush := Delivery(config, user, api, ids, ch, fs).0;
             Interact(config, conv, DeliveryText(config, didPush, ch, qrEncode)).Ok?
    requires PollSessionStatus(api.status, 0, PollTtl).result.Err?
    ensures Authenticate(config, user, conv, api, fs, ids, qrEncode).result
            == Err(PollSessionStatus(api.status, 0, PollTtl).result.error)
  {
  }

  /** When the message cannot be sent, the attempt fails with the
      conversation's code, which is also its PAM code, and nothing is
      polled: the message is the attempt's last call. */
  lemma ConversationFailureEndsAttempt(config: Config, user: string, conv: Conv, api: Api,
                                       fs: Fs, ids: OsIds, qrEncode: string -> BitMatrix)
    requires api.challenge.Ok?
    requires var ch := api.challenge.value;
             var didPush := Delivery(config, user, api, ids, ch, fs).0;
             var m := PromptedMessage(config, DeliveryText(config, didPush, ch, qrEncode));
             conv(m.0, m.1).SendFailed?
    ensures var a := Authenticate(config, user, conv, api, fs, ids, qrEncode);
            var ch := api.challenge.value;
            var d := Delivery(config, user, api, ids, ch, fs);
            var m := PromptedMessage(config, DeliveryText(config, d.0, ch, qrEncode));
            && a.result == Err(PamResult(conv(m.0, m.1).code))
            && ErrorCode(a.result.error) == conv(m.0, m.1).code
            && a.effects == [ChallengeRequested] + d.2 + [Message(m.0, m.1)]
  {
  }

  /** A signed answer that does not unpack ends the attempt with that
      error after the polling: a bad signature is an authentication error,
      any other failure a service error. */
  lemma UnpackFailureEndsAttempt(config: Config, user: string, conv: Conv, api: Api,
                                 fs: Fs, ids: OsIds, qrEncode: string -> BitMatrix)
    requires api.challenge.Ok?
    requires var ch := api.challenge.value;
             var didPush := Delivery(config, user, api, ids, ch, fs).0;
             Interact(config, conv, DeliveryText(config, didPush, ch, qrEncode)).Ok?
    requires PollSessionStatus(api.status, 0, PollTtl).result.Ok?
    requires api.unpack(PollSessionStatus(api.status, 0, PollTtl).result.value).Err?
    ensures var a := Authenticate(config, user, conv, api, fs, ids, qrEncode);
            var poll := PollSessionStatus(api.status, 0, PollTtl);
            var q := api.unpack(poll.result.value).error;
            && a.result == Err(QuestionFailed(q))
            && |a.effects| > 0 && a.effects[|a.effects| - 1] == Polled(poll.checks, poll.sleeps)
            && (q == InvalidSignature ==> ErrorCode(a.result.error) == PamAuthErr)
            && (q != InvalidSignature ==> ErrorCode(a.result.error) == PamServiceErr)
  {
  }

  /** With the hard-wired ttl, a session that never becomes ready is
      checked 101 times with 100 one-second sleeps before timing out. */
  lemma NeverReadyPollCount(status: nat -> StatusResponse)
    requires NeverReadyWithin(status, 0, PollTtl)
    ensures PollSessionStatus(status, 0, PollTtl) == PollRun(Err(TimedOut), 101, 100)
  {
    PollTimesOut(status, 0, PollTtl);
  }

  /** Once the message went out, a session that never becomes ready ends
      the attempt with `TimedOut` after 101 checks and 100 sleeps, which
      the module reports as "authentication information unavailable". */
  lemma NeverReadyTimesOut(config: Config, user: string, conv: Conv, api: Api,
                           fs: Fs, ids: OsIds, qrEncode: string -> BitMatrix)
    requires api.challenge.Ok?
    requires var ch := api.challenge.value;
             var didPush := Delivery(config, user, api, ids, ch, fs).0;
             Interact(config, conv, DeliveryText(config, didPush, ch, qrEncode)).Ok?
    requires NeverReadyWithin(api.status, 0, PollTtl)
    ensures var a := Authenticate(config, user, conv, api, fs, ids, qrEncode);
            && a.result == Err(TimedOut)
            && |a.effects| > 0 && a.effects[|a.effects| - 1] == Polled(101, 100)
            && ErrorCode(a.result.error) == PamAuthinfoUnavail
  {
    NeverReadyPollCount(api.status);
    PollErrorEndsAttempt(config, user, conv, api, fs, ids, qrEncode);
  }

  /** A verified login that is not among the authorized users is refused
      with "permission denied". */
  lemma UnauthorizedIsDenied(host: Host, flags: bv32, config: Config, user: string, conv: Conv, api: Api)
    requires StepsSucceed(config, user, conv, api, host.configEnv.fs, host.ids, host.qrEncode)
    requires !IsAuthorized(config, Unpacked(config, user, conv, api, host.configEnv.fs, host.ids, host.qrEncode))
    ensures Conclude(host, flags, Authenticate(config, user, conv, api, host.configEnv.fs, host.ids, host.qrEncode)).code
            == PamPermDenied
  {
    AuthenticateOutcome(config, user, conv, api, host.configEnv.fs, host.ids, host.qrEncode);
  }
}
